=== FILE: README.md ===
# Recipe app core in Dafny

This project models the logic inside the Recipe iOS app and proves properties of it. The app lists recipes fetched from a fixed host and caches their photos on disk. Five parts are modelled:

- **Image cache** (`ImageStorageManager`). `getFileName` turns an image URL into a cache file name. It keeps the text before any query or fragment, using Swift's `split`, which drops empty pieces. It then replaces every character that is not alphanumeric, `-`, `_` or `.` by one `-`. `saveImage`, `loadImage` and `deleteImage` act on one flat caches directory, keyed by that name. The store is a value passed through pure operations: whether the caches directory itself exists, and its files as a `map<string, seq<byte>>`. Each operation returns its result together with the store it leaves behind. The actor runs each call to completion before the next one starts, so this sequential model is faithful.
- **Network service** (`NetworkService`):
  - `createRequest` builds the request URL from the environment's base URL and the endpoint's path.
  - `performRequest`, `fetchData` and `fetch` route each failure: creating the request, the session throwing, a non-HTTP response, or a failed status check.
  - `validateResponse` sorts status codes into 2xx, 4xx, 5xx and the rest.
  - `mapURLError` turns six `URLError` codes into fixed messages.
- **Endpoints** (`NetworkEndpoints`): the `Endpoint` defaults, `fullURL`, `HTTPMethod`, `AppEnvironment.baseURL` and the two `RecipesEndpoint` cases.
- **Error descriptions** (`NetworkErrors`): the user-facing `errorDescription` of each `NetworkError`.
- **Recipe list** (`RecipesView.filteredAndSortedRecipes`). The list is narrowed by the search text, then by the selected cuisine, then sorted by name or by cuisine.

The platform comes in as inputs:

- `CharacterSet.alphanumerics` is a predicate that is fixed on ASCII and left open above it.
- Whether a file write, read or removal succeeds is a boolean.
- `UIImage(data:)`, `URLComponents`, `JSONEncoder`, `JSONDecoder` and `URLSession` are functions.
- `String.lowercased()`, `contains`, `==` and `<` are functions. Sorting assumes only that `<` is a strict weak ordering.

Modules:

- `CacheFileName` models `getFileName`, and `ImageStorage` models the rest of `ImageStorageManager.swift`.
- `NetworkErrors`, `NetworkEndpoints`, `NetworkService`, `Recipes` and `RecipesView` each follow the source file of the same name.
- `Wrappers` (Option/Result), `ByteData` and `Decimal` are supporting modules. `Decimal` models how Swift renders an `Int` inside a string.
- None of the three supporting modules models a source file of its own.

## Model

| member | source | states |
|---|---|---|
| CacheFileName.RunLength | Recipe/Managers/ImageStorageManager.swift:73 | The length of the longest prefix with no separator; the character just past it is a separator |
| CacheFileName.LeadingSeparators | Recipe/Managers/ImageStorageManager.swift:73 | The number of separators the string starts with; the character just past them is not a separator |
| CacheFileName.Split | Recipe/Managers/ImageStorageManager.swift:73 | Every piece of Swift's `split(separator:)` is non-empty and free of the separator |
| CacheFileName.FirstPiece | Recipe/Managers/ImageStorageManager.swift:73 | `split(separator:).first`, when there is one, is non-empty and holds no separator |
| CacheFileName.SplitDropsOnlySeparators | Recipe/Managers/ImageStorageManager.swift:73 | Concatenating the pieces gives the input with every separator removed and nothing else lost |
| CacheFileName.FirstPieceIsFirstRun | Recipe/Managers/ImageStorageManager.swift:73-75 | `split(...).first` is the first run of non-separators after the leading separators; it is nil when there is no such run |
| CacheFileName.NoFirstPieceIffAllSeparators | Recipe/Managers/ImageStorageManager.swift:73-75 | `split(...).first` is nil exactly when the string is all separators, the empty string included |
| CacheFileName.FirstPieceOfSeparatorFree | Recipe/Managers/ImageStorageManager.swift:73 | A non-empty string without the separator is its own first piece |
| CacheFileName.WithoutKeepsFreePrefix | Recipe/Managers/ImageStorageManager.swift:73 | Removing separators leaves a separator-free prefix untouched |
| CacheFileName.AllSeparatorsNoPiece | Recipe/Managers/ImageStorageManager.swift:73 | `split` of a string made only of separators has no first piece |
| CacheFileName.PieceAfterLeading | Recipe/Managers/ImageStorageManager.swift:73 | When something follows the leading separators, the first piece is the run right after them |
| CacheFileName.FirstPieceAfterSeparators | Recipe/Managers/ImageStorageManager.swift:73 | Leading separators do not change `split(...).first` |
| CacheFileName.FirstPieceOfFreePrefix | Recipe/Managers/ImageStorageManager.swift:73 | After a non-empty separator-free prefix, the first piece runs on up to the next separator |
| CacheFileName.FirstPieceInherits | Recipe/Managers/ImageStorageManager.swift:73 | A character absent from the string is absent from its first piece |
| CacheFileName.Components | Recipe/Managers/ImageStorageManager.swift:79 | `components(separatedBy:)` always yields at least one piece, because empty pieces are kept |
| CacheFileName.JoinedComponentsReplaces | Recipe/Managers/ImageStorageManager.swift:77-81 | Joining the components with `-` keeps the length, keeps each allowed character in place, and puts one `-` where each disallowed character stood |
| CacheFileName.Joined | Recipe/Managers/ImageStorageManager.swift:80 | `joined(separator:)` of n > 0 pieces has their total length plus n - 1 separators, and starts with the first piece |
| CacheFileName.Sanitize | Recipe/Managers/ImageStorageManager.swift:77-81 | The sanitised name has the segment's length; each character is kept if allowed and otherwise becomes `-` |
| CacheFileName.KeptSegment | Recipe/Managers/ImageStorageManager.swift:73-75 | The segment kept before sanitising, when there is one, is non-empty and holds neither `?` nor `#` |
| CacheFileName.GetFileName | Recipe/Managers/ImageStorageManager.swift:72-82 | The name is "" when no segment is kept; otherwise it is the kept segment with each disallowed character replaced one-for-one by `-` |
| CacheFileName.KeptSegmentShape | Recipe/Managers/ImageStorageManager.swift:73-75 | The kept segment is non-empty and holds no `?` or `#`. None is kept exactly when the URL is all `?`, or its first `?`-free piece is all `#` |
| CacheFileName.FileNameCharset | Recipe/Managers/ImageStorageManager.swift:77-81 | Every character of a file name is alphanumeric or `-`, `_`, `.`; a name never holds `/`, `?` or `#` |
| CacheFileName.FileNameIdempotent | Recipe/Managers/ImageStorageManager.swift:72-82 | The file name of a file name is itself |
| CacheFileName.QueryAndFragmentIgnored | Recipe/Managers/ImageStorageManager.swift:73-75 | Appending a query or fragment to a non-empty base does not change its file name |
| CacheFileName.DegenerateFileNames | Recipe/Managers/ImageStorageManager.swift:73-75 | "", "?" and "##" all give the empty name |
| CacheFileName.RunsNotCollapsed | Recipe/Managers/ImageStorageManager.swift:78-80 | "a//b" gives "a--b": runs of disallowed characters are not collapsed |
| CacheFileName.QueryAndFragmentDropped | Recipe/Managers/ImageStorageManager.swift:73-75 | "a?b#c" gives "a" |
| CacheFileName.LeadingQueryIsKept | Recipe/Managers/ImageStorageManager.swift:73 | "?x" gives "x": a leading `?` is skipped, not treated as the start of the query |
| CacheFileName.FileNamesCollide | Recipe/Managers/ImageStorageManager.swift:77-81 | "a/b" and "a:b" share the cache file "a-b" |
| ImageStorage.FileURLFor | Recipe/Managers/ImageStorageManager.swift:25 | Appending the name "" to the caches directory gives the directory itself; any other name gives the file of that name inside it |
| ImageStorage.FileExists | Recipe/Managers/ImageStorageManager.swift:41 | Nothing exists once the caches directory is gone; while it exists, the directory itself exists and a file exists exactly when the directory holds it |
| ImageStorage.Removed | Recipe/Managers/ImageStorageManager.swift:64 | After a removal the removed item no longer exists. Removing a file changes no other file; removing the caches directory removes it and every file |
| ImageStorage.SaveImage | Recipe/Managers/ImageStorageManager.swift:23-34 | Saving succeeds exactly when the write succeeds, the name is not "" and the caches directory exists. It then returns the file for `getFileName(fileName)` and the store with that entry set to the data. On failure it throws `failedToWrite` and leaves the store as it was |
| ImageStorage.LoadImage | Recipe/Managers/ImageStorageManager.swift:37-50 | Loading gives `fileNotFound` exactly when the caches directory is gone or a non-empty name is absent. The read error is passed on exactly when the name is "" or the read fails. `invalidImageData` comes exactly when the stored bytes read but do not decode, and success exactly when they decode, returning their decoding |
| ImageStorage.DeleteImageAsWritten | Recipe/Managers/ImageStorageManager.swift:53-70 | As written: `fileNotFound` exactly when the caches directory is gone or a non-empty name is absent. Success comes exactly when the removal succeeds on an existing name or on "", and `failedToDelete` exactly when the removal fails there. Failures leave the store alone; removing a name removes only its file; removing "" removes the caches directory itself |
| ImageStorage.DeleteEmptyNameWipesCache | Recipe/Managers/ImageStorageManager.swift:23-64 | Deleting the image named "" succeeds and removes the caches directory with every file. Afterwards every save fails with `failedToWrite`, and every load and every delete gives `fileNotFound` |
| ImageStorage.DeleteImage | Recipe/Managers/ImageStorageManager.swift:53-70 | Corrected: `fileNotFound` exactly when the name is "" or absent, `failedToDelete` exactly when the removal fails, and success removes only that entry. Failures leave the store alone, and the caches directory never disappears |
| ImageStorage.DeleteImageMatchesAsWritten | Recipe/Managers/ImageStorageManager.swift:53-70 | On every non-empty name the corrected and as-written deletes agree |
| ImageStorage.SaveThenLoad | Recipe/Managers/ImageStorageManager.swift:23-50 | After a successful save, loading the same name gives the decoding of the bytes just saved, or `invalidImageData` |
| ImageStorage.SaveOverwrites | Recipe/Managers/ImageStorageManager.swift:22-29 | While the caches directory exists, a second save of one name leaves exactly the second payload |
| ImageStorage.SaveIgnoresExtension | Recipe/Managers/ImageStorageManager.swift:23-25 | The extension argument changes neither the result nor the directory |
| ImageStorage.DeleteThenLoad | Recipe/Managers/ImageStorageManager.swift:37-69 | After a successful delete, loading the same name gives `fileNotFound` |
| ImageStorage.LastStored | Recipe/Managers/ImageStorageManager.swift:17-34 | None exactly when no write in the sequence succeeds; otherwise the payload of the last write that succeeds |
| ImageStorage.SerialSavesKeepLastPayload | Recipe/Managers/ImageStorageManager.swift:17-34 | Under the actor's one-at-a-time saves, the file ends with the last successful payload, untouched when none succeeded or the caches directory is gone, and no other file changes |
| Decimal.NatToDecimal | Recipe/Network/NetworkErrors.swift:22-23 | The rendering of a natural number is non-empty, all digits, and has no leading zero |
| Decimal.IntToDecimal | Recipe/Network/NetworkErrors.swift:22-23 | `"\(code)"` is non-empty, starts with `-` exactly for a negative code, is otherwise all digits, and has no leading zero |
| Decimal.DecimalRoundTrip | Recipe/Network/NetworkErrors.swift:22-23 | The decimal rendering of an `Int` reads back to the same value |
| Decimal.NatDecimalRoundTrip | Recipe/Network/NetworkErrors.swift:22-23 | The digits of a natural number read back to it |
| Decimal.DecimalInjective | Recipe/Network/NetworkErrors.swift:22-23 | Distinct integers render differently |
| NetworkErrors.ErrorDescription | Recipe/Network/NetworkErrors.swift:20-37 | Every case has a description, never nil |
| NetworkErrors.CodeInRendered | Recipe/Network/NetworkErrors.swift:22-23 | A fixed sentence followed by a rendered code and "." gives that code back |
| NetworkErrors.DescriptionsCarryCode | Recipe/Network/NetworkErrors.swift:22-35 | The `clientError`, `serverError` and `unknownError` descriptions each embed their code in decimal; reading it back gives the code |
| NetworkErrors.DescriptionsCarryMessage | Recipe/Network/NetworkErrors.swift:24-31 | `networkError(m)` is described by exactly `m`; `decodingFailed(m)` by its fixed sentence followed by exactly `m` |
| NetworkErrors.CodedDescriptionsDistinct | Recipe/Network/NetworkErrors.swift:22-35 | One coded kind with equal descriptions has equal codes, and the three coded kinds never share a description |
| NetworkEndpoints.RawValueRoundTrip | Recipe/Network/NetworkEndpoints.swift:11-16 | Each HTTP method's raw value reads back to it, and only those four strings name a method |
| NetworkEndpoints.DefaultEndpoint | Recipe/Network/NetworkEndpoints.swift:30-35 | The protocol defaults: no base URL, path, body or query parameters, and the JSON content-type header |
| NetworkEndpoints.FullURL | Recipe/Network/NetworkEndpoints.swift:37-44 | `fullURL` parses base + path when both exist, the path alone when only it exists, and is nil without a path |
| NetworkEndpoints.EnvironmentsShareBaseURL | Recipe/Network/NetworkEndpoints.swift:48-60 | Dev, stage and prod all return the same base URL |
| NetworkEndpoints.ConfiguredEnvironment | Recipe/Network/NetworkEndpoints.swift:98-106 | The configured environment is dev exactly in a debug build and prod otherwise, never stage, and its base URL is the app's host |
| NetworkEndpoints.RecipesEndpoint.AsEndpoint | Recipe/Network/NetworkEndpoints.swift:62-96 | Every case is a GET with no body or query parameters. `.recipes` has the dev base URL, path "/recipes.json" and the JSON header; `.image(s)` has no base URL, path `s` and no headers |
| NetworkEndpoints.RecipesEndpointFullURL | Recipe/Network/NetworkEndpoints.swift:37-44 | `.recipes` resolves to the recipe list on the app's host; `.image(s)` resolves to `s` |
| NetworkService.ValidateResponse | Recipe/Network/NetworkService.swift:123-134 | 2xx passes; 4xx gives `clientError`, 5xx gives `serverError` and every other integer gives `unknownError`, each with the code unchanged and each if and only if |
| NetworkService.ValidateResponseByHundreds | Recipe/Network/NetworkService.swift:123-134 | Validation agrees with classifying by the hundreds digit, negatives unknown |
| NetworkService.MapURLError | Recipe/Network/NetworkService.swift:156-166 | The result is a `networkError` carrying the mapped message for a listed code, and the error's own description otherwise |
| NetworkService.MapURLErrorMessages | Recipe/Network/NetworkService.swift:156-166 | The six listed codes give their fixed messages whatever the description; any other code gives the description; the user sees exactly the message |
| NetworkService.Rethrown | Recipe/Network/NetworkService.swift:53-57 | A thrown `URLError` is replaced by its `mapURLError` translation, any other error is rethrown unchanged, and no `URLError` leaves the catch |
| NetworkService.RequestURLString | Recipe/Network/NetworkService.swift:97 | The request URL string starts with the app's host and continues with exactly the endpoint's path, or nothing without a path |
| NetworkService.RequestURLIgnoresBuild | Recipe/Network/NetworkService.swift:97 | Debug and release builds produce the same request URL string for every endpoint |
| NetworkService.CreateRequest | Recipe/Network/NetworkService.swift:96-118 | `invalidURL` exactly when the URL cannot be formed from the environment base + path and the query. A body that fails to encode gives `decodingFailed` with the encode prefix. Otherwise the request has the resolved URL, the method's raw value, the endpoint's headers and the encoded body |
| NetworkService.RecipesRequest | Recipe/Network/NetworkService.swift:96-118 | The `.recipes` request is a GET of host + "/recipes.json" with the JSON header and no body, whatever the environment |
| NetworkService.ImageRequestPrefixesHost | Recipe/Network/NetworkService.swift:97 | For `.image(s)` the request URL string is host + `s`, while `fullURL` uses `s` alone |
| NetworkService.PerformRequest | Recipe/Network/NetworkService.swift:80-90 | Errors from creating the request and errors the session throws pass through; success only for an HTTP response whose status is 2xx, returning the session's bytes and code |
| NetworkService.FetchData | Recipe/Network/NetworkService.swift:64-73 | Success exactly when the request is created and the session answers with a 2xx HTTP response; the data is the session's bytes unchanged; an `invalidURL` or encode failure from building the request reaches the caller unchanged; no `URLError` escapes |
| NetworkService.FetchDataRouting | Recipe/Network/NetworkService.swift:64-90 | A `URLError` the session throws becomes its mapped `networkError`, any other error the session throws passes unchanged, a non-HTTP response gives `invalidResponse`, and a non-2xx status gives its validation error |
| NetworkService.DecodeData | Recipe/Network/NetworkService.swift:140-151 | Success exactly when the decoder succeeds, with its value; a `DecodingError` and any other error both become `decodingFailed`, with the "Decoding error: " and "Unexpected decoding error: " prefixes |
| NetworkService.Fetch | Recipe/Network/NetworkService.swift:49-58 | No `URLError` escapes `fetch` |
| NetworkService.FetchIsFetchDataThenDecode | Recipe/Network/NetworkService.swift:49-73 | `fetch` fails exactly as `fetchData` does, and otherwise decodes the bytes `fetchData` returns |
| NetworkService.OfflineFetchFails | RecipeTests/NetworkServiceTests.swift:42-49 | A session that throws `notConnectedToInternet` makes `fetch` fail with "No internet connection." |
| NetworkService.ServerErrorBeforeDecoding | RecipeTests/NetworkServiceTests.swift:56-63 | A 500 response makes `fetch` fail with `serverError(500)` before decoding |
| RecipesView.SortOptionCases | Recipe/View/RecipesView.swift:18-21 | `allCases` lists both options once, and each raw value reads back to its option |
| RecipesView.Filter | Recipe/View/RecipesView.swift:27-34 | `filter` keeps each element that passes, exactly as often as it occurs, and drops the rest |
| RecipesView.SearchStep | Recipe/View/RecipesView.swift:26-31 | An empty query keeps everything; otherwise a recipe is kept, as often as it occurs, exactly when its lowercased name or cuisine contains the lowercased query |
| RecipesView.CuisineStep | Recipe/View/RecipesView.swift:33-35 | No filter, or "", keeps everything; otherwise a recipe is kept, as often as it occurs, exactly when its cuisine is `==` to the filter |
| RecipesView.Insert | Recipe/View/RecipesView.swift:37-42 | Inserting adds exactly the one element to the multiset |
| RecipesView.Sort | Recipe/View/RecipesView.swift:37-42 | Sorting is a permutation |
| RecipesView.PrependKeepsOrder | Recipe/View/RecipesView.swift:37-42 | A sorted list stays sorted with an element in front that no element is less than |
| RecipesView.InsertKeepsOrder | Recipe/View/RecipesView.swift:37-42 | Inserting into a sorted list keeps it sorted, given a strict weak ordering |
| RecipesView.SortSorts | Recipe/View/RecipesView.swift:37-42 | The sort's output is ordered by the selected key: no later element is less than an earlier one |
| RecipesView.SortSortsWhenOrdered | Recipe/View/RecipesView.swift:37-42 | The same, for any comparator that is a strict weak ordering |
| RecipesView.FilteredAndSortedRecipes | Recipe/View/RecipesView.swift:23-45 | Each recipe appears exactly as often as loaded if it passes both the search and the cuisine filter, and not at all otherwise; the list is sorted by the selected key |
| RecipesView.ShownRecipes | Recipe/View/RecipesView.swift:24-44 | The list is a sub-multiset of the loaded recipes, and a recipe is shown exactly when it was loaded and passes both filters |
| RecipesView.NoFilterOnlyReorders | Recipe/View/RecipesView.swift:24-44 | With an empty query and no cuisine (nil or ""), the list is the loaded recipes reordered |

## Left out

- The SwiftUI views, the app bootstrap, the view model and `RecipesService` are left out: they only present or forward results.
- `NetworkLogger` and the store's `print` calls are left out: they are logging side effects.
- Actor scheduling and async/await are not modelled: each call runs to completion, so the operations are sequential.
- Foundation and UIKit are parameters, not models. This covers `FileManager`, `Data.write`, `Data(contentsOf:)`, `UIImage(data:)`, `URLComponents`, JSON coding and `URLSession`. Whether a write, read or removal of a file succeeds is a boolean input. A failed atomic write leaves the old file in place.
- A failed `removeItem` is modelled as removing nothing, although the platform may leave a partial removal.
- `CharacterSet.alphanumerics` is fixed only on ASCII letters and digits. `lowercased()`, `contains` and `String` `==` are uninterpreted. String `<` is assumed only to be a strict weak ordering.
- Swift `String`s are sequences of grapheme clusters; here a string is a sequence of Unicode scalars.
  - `CacheFileName.Split` cuts at every `?` or `#` scalar. Swift's `split` compares whole `Character`s, so it does not cut where a `?` or `#` shares a grapheme cluster with a neighbour.
  - Neighbours that join a `?` or `#` into one cluster include a following combining mark, a zero-width joiner U+200D, an emoji modifier U+1F3FB–U+1F3FF or a tag character, and a preceding prepend character such as U+0600.
  - For "a?\u{301}b" Swift names the file "a-\u{301}b", and for "a?\u{200D}b" it names it "a--b". The model names both "a".
  - The model's name agrees with Swift's on every URL in which each `?` and `#` is a grapheme cluster on its own.
- `RecipesView.PassesCuisine` compares cuisines with the abstract `==` of `StringOps`, which in Swift is canonical equivalence. The model states nothing about which strings it equates.
- Two Foundation behaviours are assumed rather than taken from the code, and the Findings row rests on both:
  - `appendingPathComponent("")` yields the caches directory itself (`ImageStorage.FileURLFor`).
  - Writing or reading that directory as if it were a file always fails (`ImageStorage.SaveImage`, `ImageStorage.LoadImage`), whatever the boolean inputs say.
- Once the caches directory is removed, nothing in the code recreates it, and the model does not either. The platform may recreate it, for example on a later launch; that is not modelled.
- `Int` width is not modelled. Status codes and error codes are unbounded integers; the model never does arithmetic on them that could overflow.
- Path resolution of "." and ".." is not modelled. Such names are ordinary file names here, and the code does not reject them either. Dots are allowed characters, so `getFileName` keeps "." and ".." as they are. `appendingPathComponent(".")` would reach the caches directory itself, just as "" does, and `appendingPathComponent("..")` would reach its parent. So the mechanism behind the Findings row is not limited to "".
- No code composes the cache with a network fetch, so that composition is not modelled.
- `RecipesView.Sort` is insertion sort, and Swift does not document `sort` as stable. The contracts fix only sortedness and the multiset, never the order of equal keys.
- `NetworkService.Fetch`: its own contract states only that no `URLError` escapes. Its full behaviour is stated by `FetchIsFetchDataThenDecode`.
- `createRequest` names `APIConstants.environment`, but only `APIConfiguration` is declared (Recipe/Network/NetworkEndpoints.swift:98-106). The environment is therefore a parameter, and every environment has the same base URL.
- `Recipes` is a plain record. Its JSON coding is not modelled.
- A reader might expect the cache key of "?x" to be the empty text before the first `?`. In the code it is "x", because `split` drops the empty piece and leading `?` characters are skipped. The model follows the code, and `CacheFileName.LeadingQueryIsKept` proves the case.

## Findings

| source | as written | input that shows it | evidently intended | confidence | as-written member | corrected member |
|---|---|---|---|---|---|---|
| Recipe/Managers/ImageStorageManager.swift:53-69 | `deleteImage` appends the sanitised name to the caches directory. When the name is "", the URL is the caches directory itself. That directory exists, so the guard passes and `removeItem` removes the directory itself with every cached image. After that the cache is broken, not just empty: every save fails with `failedToWrite`, and every load and delete reports `fileNotFound` | `deleteImage(fileName: "?")` (or "", "##") with other images cached | Deleting an image removes at most that image's own file; a name that sanitises to "" is reported as `fileNotFound` | medium, not executed | ImageStorage.DeleteEmptyNameWipesCache | ImageStorage.DeleteImage |

=== FILE: byte_data.dfy ===
/** Foundation's `Data`: a sequence of bytes. */
module ByteData {

  newtype byte = b: int | 0 <= b < 256

  type Data = seq<byte>
}

=== FILE: cache_file_name.dfy ===
/** How the image cache turns an image URL into the name of its cache file
    (`ImageStorageManager.getFileName`): keep the text before any query or
    fragment, then replace every character that is not alphanumeric, `-`, `_`
    or `.` by `-`. */
module CacheFileName {
  import opened Wrappers

  predicate IsAsciiAlphanumeric(c: char) {
    ('a' <= c <= 'z') || ('A' <= c <= 'Z') || ('0' <= c <= '9')
  }

  /** Foundation's `CharacterSet.alphanumerics` is Unicode-wide (letters, marks
      and digits of every script). The model pins it down only on ASCII, where it
      is exactly the letters and digits; above ASCII it is left open, so every
      result below holds for each choice of the non-ASCII part. */
  ghost predicate AgreesOnAscii(alnum: char -> bool) {
    forall c: char :: c as int < 128 ==> (alnum(c) <==> IsAsciiAlphanumeric(c))
  }

  type Alphanumerics = alnum: char -> bool | AgreesOnAscii(alnum) witness IsAsciiAlphanumeric

  /** The characters a file name keeps: alphanumerics and `-`, `_`, `.`. */
  predicate Allowed(c: char, alnum: Alphanumerics) {
    alnum(c) || c == '-' || c == '_' || c == '.'
  }

  // ---------------------------------------------------------------------------
  // Swift's `split(separator:)`
  // ---------------------------------------------------------------------------

  /** Length of the longest prefix of `s` that holds no `sep`. */
  function RunLength(s: string, sep: char): (n: nat)
    ensures n <= |s|
    ensures forall i :: 0 <= i < n ==> s[i] != sep
    ensures n < |s| ==> s[n] == sep
  {
    if |s| == 0 || s[0] == sep then 0 else 1 + RunLength(s[1..], sep)
  }

  /** Number of `sep` characters `s` starts with. */
  function LeadingSeparators(s: string, sep: char): (k: nat)
    ensures k <= |s|
    ensures forall i :: 0 <= i < k ==> s[i] == sep
    ensures k < |s| ==> s[k] != sep
  {
    if |s| == 0 || s[0] != sep then 0 else 1 + LeadingSeparators(s[1..], sep)
  }

  /** `s` with every `sep` removed. */
  function Without(s: string, sep: char): string {
    if |s| == 0 then ""
    else (if s[0] == sep then "" else [s[0]]) + Without(s[1..], sep)
  }

  function Concat(pieces: seq<string>): string {
    if |pieces| == 0 then "" else pieces[0] + Concat(pieces[1..])
  }

  /** Swift's `split(separator:)` with its default arguments: cut at every
      `sep` and drop the empty pieces. */
  function Split(s: string, sep: char): (pieces: seq<string>)
    ensures forall i :: 0 <= i < |pieces| ==> |pieces[i]| > 0 && sep !in pieces[i]
    decreases |s|
  {
    if |s| == 0 then []
    else if s[0] == sep then Split(s[1..], sep)
    else
      var n := RunLength(s, sep);
      [s[..n]] + Split(s[n..], sep)
  }

  /** The pieces hold all of `s` except the separators, in order. */
  lemma {:induction false} SplitDropsOnlySeparators(s: string, sep: char)
    ensures Concat(Split(s, sep)) == Without(s, sep)
    decreases |s|
  {
    if |s| == 0 {
    } else if s[0] == sep {
      SplitDropsOnlySeparators(s[1..], sep);
    } else {
      var n := RunLength(s, sep);
      SplitDropsOnlySeparators(s[n..], sep);
      assert forall i :: 0 <= i < n ==> s[..n][i] == s[i];
      WithoutKeepsFreePrefix(s[..n], s[n..], sep);
      assert s[..n] + s[n..] == s;
      var rest := Split(s[n..], sep);
      assert ([s[..n]] + rest)[1..] == rest;
    }
  }

  /** A prefix free of `sep` passes through `Without` untouched. */
  lemma {:induction false} WithoutKeepsFreePrefix(a: string, b: string, sep: char)
    requires forall i :: 0 <= i < |a| ==> a[i] != sep
    ensures Without(a + b, sep) == a + Without(b, sep)
    decreases |a|
  {
    if |a| == 0 {
      assert a + b == b;
    } else {
      var t := a[1..];
      assert (a + b)[0] == a[0];
      assert (a + b)[1..] == t + b;
      assert forall i :: 0 <= i < |t| ==> t[i] == a[i + 1];
      WithoutKeepsFreePrefix(t, b, sep);
      calc {
        Without(a + b, sep);
        [a[0]] + Without(t + b, sep);
        [a[0]] + (t + Without(b, sep));
        { assert a == [a[0]] + t; }
        a + Without(b, sep);
      }
    }
  }

  /** `split(separator: sep).first` */
  function FirstPiece(s: string, sep: char): (first: Option<string>)
    ensures first.Some? ==> |first.value| > 0 && sep !in first.value
  {
    var pieces := Split(s, sep);
    if |pieces| == 0 then None else Some(pieces[0])
  }

  lemma FirstPieceSkipsSeparator(s: string, sep: char)
    requires |s| > 0 && s[0] == sep
    ensures FirstPiece(s, sep) == FirstPiece(s[1..], sep)
  {
  }

  lemma FirstPieceAtRun(s: string, sep: char)
    requires |s| > 0 && s[0] != sep
    ensures FirstPiece(s, sep) == Some(s[..RunLength(s, sep)])
  {
  }

  /** Leading separators do not change the first piece. */
  lemma {:induction false} FirstPieceAfterSeparators(s: string, sep: char, k: nat)
    requires k <= |s|
    requires forall i :: 0 <= i < k ==> s[i] == sep
    ensures FirstPiece(s, sep) == FirstPiece(s[k..], sep)
    decreases k
  {
    if k > 0 {
      FirstPieceSkipsSeparator(s, sep);
      assert forall i :: 0 <= i < k - 1 ==> s[1..][i] == s[i + 1];
      FirstPieceAfterSeparators(s[1..], sep, k - 1);
      assert s[1..][k - 1..] == s[k..];
    } else {
      assert s[0..] == s;
    }
  }

  /** A string of separators only has no first piece. */
  lemma AllSeparatorsNoPiece(s: string, sep: char)
    requires LeadingSeparators(s, sep) == |s|
    ensures FirstPiece(s, sep) == None
  {
    FirstPieceAfterSeparators(s, sep, |s|);
    assert s[|s|..] == [];
  }

  /** Past the leading separators, the first piece is the run that follows. */
  lemma PieceAfterLeading(s: string, sep: char, k: nat)
    requires k == LeadingSeparators(s, sep) < |s|
    ensures FirstPiece(s, sep) == Some(s[k..k + RunLength(s[k..], sep)])
  {
    FirstPieceAfterSeparators(s, sep, k);
    var t := s[k..];
    assert t[0] == s[k];
    FirstPieceAtRun(t, sep);
    var n := RunLength(t, sep);
    assert t[..n] == s[k..k + n];
  }

  /** The first piece is the first run of non-separators after the leading
      separators; there is none when `s` is all separators. */
  lemma FirstPieceIsFirstRun(s: string, sep: char)
    ensures var k := LeadingSeparators(s, sep);
            FirstPiece(s, sep) ==
              if k == |s| then None else Some(s[k..k + RunLength(s[k..], sep)])
  {
    var k := LeadingSeparators(s, sep);
    if k < |s| {
      PieceAfterLeading(s, sep, k);
    } else {
      AllSeparatorsNoPiece(s, sep);
    }
  }

  /** `split` yields no piece exactly when `s` is all separators, the empty
      string included. */
  lemma NoFirstPieceIffAllSeparators(s: string, sep: char)
    ensures FirstPiece(s, sep).None? <==> forall i :: 0 <= i < |s| ==> s[i] == sep
  {
    FirstPieceIsFirstRun(s, sep);
  }

  lemma FirstPieceOfSeparatorFree(s: string, sep: char)
    requires |s| > 0 && sep !in s
    ensures FirstPiece(s, sep) == Some(s)
  {
    FirstPieceIsFirstRun(s, sep);
    assert s[0] in s;
    assert LeadingSeparators(s, sep) == 0;
    assert s[0..] == s;
    assert forall i :: 0 <= i < |s| ==> s[i] != sep;
    assert RunLength(s, sep) == |s|;
    assert s[..|s|] == s;
  }

  // ---------------------------------------------------------------------------
  // Foundation's `components(separatedBy:)` and `joined(separator:)`
  // ---------------------------------------------------------------------------

  /** `components(separatedBy: allowed.inverted)`: cut at every character that
      is not allowed, keeping empty pieces, so n cuts give n + 1 pieces. */
  function Components(s: string, alnum: Alphanumerics): (parts: seq<string>)
    ensures |parts| >= 1
    decreases |s|
  {
    if |s| == 0 then [""]
    else
      var rest := Components(s[1..], alnum);
      if Allowed(s[0], alnum) then [[s[0]] + rest[0]] + rest[1..]
      else [""] + rest
  }

  /** The total length of the pieces. */
  function TotalLength(parts: seq<string>): nat {
    if |parts| == 0 then 0 else |parts[0]| + TotalLength(parts[1..])
  }

  function Joined(parts: seq<string>, sep: char): (joined: string)
    ensures |parts| > 0 ==> |joined| == TotalLength(parts) + |parts| - 1
    ensures |parts| > 0 ==> joined[..|parts[0]|] == parts[0]
  {
    if |parts| == 0 then ""
    else if |parts| == 1 then parts[0]
    else parts[0] + [sep] + Joined(parts[1..], sep)
  }

  lemma JoinedExtendFirst(c: char, rest: seq<string>, sep: char)
    requires |rest| >= 1
    ensures Joined([[c] + rest[0]] + rest[1..], sep) == [c] + Joined(rest, sep)
  {
    var parts := [[c] + rest[0]] + rest[1..];
    assert parts[1..] == rest[1..];
  }

  lemma JoinedEmptyFirst(rest: seq<string>, sep: char)
    requires |rest| >= 1
    ensures Joined([""] + rest, sep) == [sep] + Joined(rest, sep)
  {
    assert ([""] + rest)[1..] == rest;
  }

  /** Joining the components with `-` puts exactly one `-` where each
      disallowed character stood: nothing is collapsed, nothing moves. */
  lemma {:induction false} JoinedComponentsReplaces(s: string, alnum: Alphanumerics)
    ensures var r := Joined(Components(s, alnum), '-');
            |r| == |s| &&
            forall i :: 0 <= i < |s| ==> r[i] == (if Allowed(s[i], alnum) then s[i] else '-')
    decreases |s|
  {
    if |s| > 0 {
      var rest := Components(s[1..], alnum);
      JoinedComponentsReplaces(s[1..], alnum);
      if Allowed(s[0], alnum) {
        JoinedExtendFirst(s[0], rest, '-');
      } else {
        JoinedEmptyFirst(rest, '-');
      }
      var r := Joined(Components(s, alnum), '-');
      forall i | 0 <= i < |s|
        ensures r[i] == (if Allowed(s[i], alnum) then s[i] else '-')
      {
        if i > 0 { assert s[i] == s[1..][i - 1]; }
      }
    }
  }

  /** The sanitising step of `getFileName`, as written: components joined by `-`.
      Each character is kept if allowed and otherwise becomes one `-`. */
  function Sanitize(segment: string, alnum: Alphanumerics): (name: string)
    ensures |name| == |segment|
    ensures forall i :: 0 <= i < |segment| ==>
              name[i] == (if Allowed(segment[i], alnum) then segment[i] else '-')
  {
    JoinedComponentsReplaces(segment, alnum);
    Joined(Components(segment, alnum), '-')
  }

  // ---------------------------------------------------------------------------
  // getFileName
  // ---------------------------------------------------------------------------

  /** The segment `getFileName` keeps: the first piece of the split at `?`,
      then the first piece of that at `#`; None when either split yields nothing. */
  function KeptSegment(url: string): (kept: Option<string>)
    ensures kept.Some? ==> |kept.value| > 0 && '?' !in kept.value && '#' !in kept.value
  {
    match FirstPiece(url, '?')
    case None => None
    case Some(beforeQuery) =>
      if FirstPiece(beforeQuery, '#').Some? then
        FirstPieceInherits(beforeQuery, '#', '?');
        FirstPiece(beforeQuery, '#')
      else None
  }

  /** The cache file name of `url`: "" when no segment is kept, otherwise the
      kept segment with every disallowed character replaced by one `-`. */
  function GetFileName(url: string, alnum: Alphanumerics): (name: string)
    ensures KeptSegment(url).None? ==> name == ""
    ensures KeptSegment(url).Some? ==>
              var segment := KeptSegment(url).value;
              |name| == |segment| &&
              forall i :: 0 <= i < |segment| ==>
                name[i] == (if Allowed(segment[i], alnum) then segment[i] else '-')
  {
    match KeptSegment(url)
    case None => ""
    case Some(segment) => Sanitize(segment, alnum)
  }

  /** A character absent from `s` is absent from its first piece. */
  lemma FirstPieceInherits(s: string, sep: char, c: char)
    requires c !in s && FirstPiece(s, sep).Some?
    ensures c !in FirstPiece(s, sep).value
  {
    FirstPieceIsFirstRun(s, sep);
    var k := LeadingSeparators(s, sep);
    var p := FirstPiece(s, sep).value;
    assert p == s[k..k + RunLength(s[k..], sep)];
    forall i | 0 <= i < |p| ensures p[i] != c {
      assert p[i] == s[k + i];
    }
  }

  /** The kept segment is the first non-empty `?`-free run of `url`, cut at its
      first non-empty `#`-free run; it holds neither `?` nor `#`. */
  lemma KeptSegmentShape(url: string)
    ensures KeptSegment(url).Some? ==>
              var segment := KeptSegment(url).value;
              |segment| > 0 && '?' !in segment && '#' !in segment
    ensures KeptSegment(url).None? <==>
              (forall i :: 0 <= i < |url| ==> url[i] == '?') ||
              (FirstPiece(url, '?').Some? &&
               forall i :: 0 <= i < |FirstPiece(url, '?').value| ==> FirstPiece(url, '?').value[i] == '#')
  {
    NoFirstPieceIffAllSeparators(url, '?');
    match FirstPiece(url, '?')
    case None =>
    case Some(q) =>
      NoFirstPieceIffAllSeparators(q, '#');
      assert '?' !in q;
      if FirstPiece(q, '#').Some? {
        FirstPieceInherits(q, '#', '?');
      }
  }

  /** Every character of a cache file name is alphanumeric or one of `-`, `_`,
      `.`; in particular it never holds `/`, `?` or `#`. */
  lemma FileNameCharset(url: string, alnum: Alphanumerics)
    ensures var name := GetFileName(url, alnum);
            (forall i :: 0 <= i < |name| ==> Allowed(name[i], alnum)) &&
            '/' !in name && '?' !in name && '#' !in name
  {
    var name := GetFileName(url, alnum);
    forall i | 0 <= i < |name| ensures Allowed(name[i], alnum) && name[i] !in "/?#" {
      assert !Allowed('/', alnum) && !Allowed('?', alnum) && !Allowed('#', alnum);
    }
  }

  /** A cache file name is its own cache file name. */
  lemma FileNameIdempotent(url: string, alnum: Alphanumerics)
    ensures GetFileName(GetFileName(url, alnum), alnum) == GetFileName(url, alnum)
  {
    var name := GetFileName(url, alnum);
    FileNameCharset(url, alnum);
    if |name| > 0 {
      FirstPieceOfSeparatorFree(name, '?');
      FirstPieceOfSeparatorFree(name, '#');
      assert KeptSegment(name) == Some(name);
      var again := GetFileName(name, alnum);
      assert |again| == |name|;
      forall i | 0 <= i < |name| ensures again[i] == name[i] {
        assert Allowed(name[i], alnum);
      }
    } else {
      assert Split(name, '?') == [];
    }
  }

  lemma RunLengthPastPrefix(a: string, b: string, sep: char)
    requires sep !in a
    ensures RunLength(a + b, sep) == |a| + RunLength(b, sep)
    decreases |a|
  {
    if |a| > 0 {
      assert (a + b)[1..] == a[1..] + b;
      RunLengthPastPrefix(a[1..], b, sep);
    } else {
      assert a + b == b;
    }
  }

  /** After a non-empty `sep`-free prefix, the first piece runs on into
      whatever follows, up to the next `sep`. */
  lemma FirstPieceOfFreePrefix(a: string, b: string, sep: char)
    requires |a| > 0 && sep !in a
    ensures FirstPiece(a + b, sep) == Some(a + b[..RunLength(b, sep)])
  {
    assert (a + b)[0] == a[0] && a[0] in a;
    FirstPieceAtRun(a + b, sep);
    RunLengthPastPrefix(a, b, sep);
    assert (a + b)[..|a| + RunLength(b, sep)] == a + b[..RunLength(b, sep)];
  }

  /** A query or fragment that follows a non-empty base does not change the
      file name. */
  lemma QueryAndFragmentIgnored(base: string, rest: string, alnum: Alphanumerics)
    requires |base| > 0 && '?' !in base && '#' !in base
    requires |rest| > 0 && (rest[0] == '?' || rest[0] == '#')
    ensures GetFileName(base + rest, alnum) == GetFileName(base, alnum)
  {
    FirstPieceOfSeparatorFree(base, '?');
    FirstPieceOfSeparatorFree(base, '#');
    assert KeptSegment(base) == Some(base);
    FirstPieceOfFreePrefix(base, rest, '?');
    var m := RunLength(rest, '?');
    if rest[0] == '?' {
      assert rest[..m] == [];
      assert base + rest[..m] == base;
    } else {
      var tail := rest[..m];
      assert m > 0 && tail[0] == '#';
      FirstPieceOfFreePrefix(base, tail, '#');
      assert RunLength(tail, '#') == 0;
      assert base + tail[..0] == base;
    }
    assert KeptSegment(base + rest) == Some(base);
  }

  /** Degenerate inputs, wholly query or fragment or empty, give "". */
  lemma DegenerateFileNames(alnum: Alphanumerics)
    ensures GetFileName("", alnum) == ""
    ensures GetFileName("?", alnum) == ""
    ensures GetFileName("##", alnum) == ""
  {
    NoFirstPieceIffAllSeparators("", '?');
    NoFirstPieceIffAllSeparators("?", '?');
    FirstPieceOfSeparatorFree("##", '?');
    NoFirstPieceIffAllSeparators("##", '#');
  }

  /** Runs of disallowed characters are not collapsed. */
  lemma RunsNotCollapsed(alnum: Alphanumerics)
    ensures GetFileName("a//b", alnum) == "a--b"
  {
    FirstPieceOfSeparatorFree("a//b", '?');
    FirstPieceOfSeparatorFree("a//b", '#');
    var name := GetFileName("a//b", alnum);
    assert |name| == 4 && name[0] == 'a' && name[1] == '-' && name[2] == '-' && name[3] == 'b';
  }

  /** A query and a fragment after the base are both dropped. */
  lemma QueryAndFragmentDropped(alnum: Alphanumerics)
    ensures GetFileName("a?b#c", alnum) == "a"
  {
    assert "a?b#c" == "a" + "?b#c";
    QueryAndFragmentIgnored("a", "?b#c", alnum);
    FirstPieceOfSeparatorFree("a", '?');
    FirstPieceOfSeparatorFree("a", '#');
    assert GetFileName("a", alnum)[0] == 'a';
  }

  /** Because `split` drops empty pieces, a leading `?` or `#` is skipped rather
      than ending the name: the query text becomes the name. */
  lemma LeadingQueryIsKept(alnum: Alphanumerics)
    ensures GetFileName("?x", alnum) == "x"
  {
    FirstPieceIsFirstRun("?x", '?');
    assert LeadingSeparators("?x", '?') == 1;
    assert "?x"[1..] == "x";
    assert RunLength("x", '?') == 1;
    assert "?x"[1..2] == "x";
    FirstPieceOfSeparatorFree("x", '#');
    assert GetFileName("?x", alnum)[0] == 'x';
  }

  /** The sanitising is lossy: URLs differing only in which disallowed
      character they hold share one cache file. */
  lemma FileNamesCollide(alnum: Alphanumerics)
    ensures GetFileName("a/b", alnum) == GetFileName("a:b", alnum) == "a-b"
  {
    FirstPieceOfSeparatorFree("a/b", '?');
    FirstPieceOfSeparatorFree("a/b", '#');
    FirstPieceOfSeparatorFree("a:b", '?');
    FirstPieceOfSeparatorFree("a:b", '#');
    var n1 := GetFileName("a/b", alnum);
    var n2 := GetFileName("a:b", alnum);
    assert n1[0] == 'a' && n1[1] == '-' && n1[2] == 'b';
    assert n2[0] == 'a' && n2[1] == '-' && n2[2] == 'b';
  }
}

=== FILE: decimal.dfy ===
/** Swift's string interpolation of an `Int` (`"\(code)"`): base ten, a
    leading `-` for negative values, no leading zeros. */
module Decimal {

  predicate IsDigit(c: char) {
    '0' <= c <= '9'
  }

  function DigitChar(d: nat): (c: char)
    requires d < 10
    ensures IsDigit(c)
  {
    (48 + d) as char
  }

  function DigitValue(c: char): (d: nat)
    requires IsDigit(c)
    ensures d < 10
  {
    (c as int) - 48
  }

  /** The digits of `n`, most significant first. */
  function NatToDecimal(n: nat): (s: string)
    ensures |s| > 0
    ensures forall i :: 0 <= i < |s| ==> IsDigit(s[i])
    ensures |s| > 1 ==> s[0] != '0'
  {
    if n < 10 then [DigitChar(n)] else NatToDecimal(n / 10) + [DigitChar(n % 10)]
  }

  /** `"\(n)"` for an `Int` `n`. */
  function IntToDecimal(n: int): (s: string)
    ensures |s| > 0 && (s[0] == '-' <==> n < 0)
    ensures forall i :: (if n < 0 then 1 else 0) <= i < |s| ==> IsDigit(s[i])
    ensures |s| > (if n < 0 then 2 else 1) ==> s[if n < 0 then 1 else 0] != '0'
  {
    if n < 0 then "-" + NatToDecimal(-n) else NatToDecimal(n)
  }

  /** The value of a string of digits. */
  function DigitsValue(s: string): nat
    requires forall i :: 0 <= i < |s| ==> IsDigit(s[i])
  {
    if |s| == 0 then 0 else 10 * DigitsValue(s[..|s| - 1]) + DigitValue(s[|s| - 1])
  }

  /** Reads back what `IntToDecimal` writes. */
  function ParseDecimal(s: string): int
    requires |s| > 0 && (s[0] == '-' || IsDigit(s[0]))
    requires forall i :: 0 < i < |s| ==> IsDigit(s[i])
  {
    if s[0] == '-' then -(DigitsValue(s[1..]) as int) else DigitsValue(s)
  }

  lemma {:induction false} NatDecimalRoundTrip(n: nat)
    ensures DigitsValue(NatToDecimal(n)) == n
  {
    if n >= 10 {
      NatDecimalRoundTrip(n / 10);
      var s := NatToDecimal(n);
      assert s[..|s| - 1] == NatToDecimal(n / 10);
    }
  }

  /** The rendering can be read back, so distinct codes render differently. */
  lemma DecimalRoundTrip(n: int)
    ensures var s := IntToDecimal(n);
            |s| > 0 && (s[0] == '-' || IsDigit(s[0])) &&
            (forall i :: 0 < i < |s| ==> IsDigit(s[i])) &&
            ParseDecimal(s) == n
  {
    var s := IntToDecimal(n);
    if n < 0 {
      NatDecimalRoundTrip(-n);
      assert s[1..] == NatToDecimal(-n);
    } else {
      NatDecimalRoundTrip(n);
    }
  }

  lemma DecimalInjective(a: int, b: int)
    requires IntToDecimal(a) == IntToDecimal(b)
    ensures a == b
  {
    DecimalRoundTrip(a);
    DecimalRoundTrip(b);
  }
}

=== FILE: image_storage.dfy ===
/** The on-disk image cache (`ImageStorageManager`): one flat caches directory
    whose files are named by `CacheFileName.GetFileName` of the caller's URL.
    The actor runs each call to completion before the next, so the store is
    modelled as a value threaded through pure operations. The
    platform's filesystem and image decoder appear as inputs: whether a write,
    read or removal succeeds, and the decoder `UIImage(data:)`. */
module ImageStorage {
  import opened Wrappers
  import opened CacheFileName
  import opened ByteData

  /** `ImageStorageError` */
  datatype ImageStorageError = InvalidImageData | FileNotFound | FailedToWrite | FailedToDelete

  /** The files in the caches directory: each file's name and bytes. */
  type Directory = map<string, Data>

  /** The caches directory as the store sees it: whether the directory itself
      exists, and the files it holds. Once the directory is gone nothing in
      this code creates it again. */
  datatype Store = Store(cachesExists: bool, files: Directory)

  /** `URL.cachesDirectory.appendingPathComponent(name)`. Appending the empty
      name yields the caches directory itself, not a file inside it. */
  datatype FileURL = CachesDirectory | CachedFile(name: string)

  function FileURLFor(safeFileName: string): (url: FileURL)
    ensures url.CachesDirectory? <==> safeFileName == ""
    ensures url.CachedFile? ==> url.name == safeFileName
  {
    if safeFileName == "" then CachesDirectory else CachedFile(safeFileName)
  }

  /** `FileManager.default.fileExists(atPath:)`: nothing exists once the caches
      directory is gone; while it exists, the directory itself does, and a file
      does exactly when the directory holds it. */
  function FileExists(store: Store, url: FileURL): (found: bool)
    ensures found ==> store.cachesExists
    ensures store.cachesExists && url.CachesDirectory? ==> found
    ensures url.CachedFile? ==> (found <==> store.cachesExists && url.name in store.files)
  {
    store.cachesExists && match url
                          case CachesDirectory => true
                          case CachedFile(name) => name in store.files
  }

  /** What a store operation returns or throws, with the store it leaves. */
  datatype StoreStep<T> = StoreStep(result: Result<T, ImageStorageError>, store: Store)

  /** `saveImage`: an atomic write of `imageData` to the file named by
      `fileName`, replacing any earlier content. `writeSucceeds` says whether
      `Data.write` completes when its target can be written at all; a write
      aimed at the caches directory itself, or into a caches directory that no
      longer exists, always fails. `fileExtension` is accepted and never used. */
  function SaveImage(store: Store, imageData: Data, fileName: string,
                     fileExtension: string, alnum: Alphanumerics, writeSucceeds: bool)
    : (step: StoreStep<FileURL>)
    ensures var name := GetFileName(fileName, alnum);
            (step.result.Success? <==> writeSucceeds && name != "" && store.cachesExists) &&
            (step.result.Success? ==>
               step.result.value == CachedFile(name) &&
               step.store == Store(true, store.files[name := imageData])) &&
            (step.result.Failure? ==>
               step.result.error == FailedToWrite && step.store == store)
  {
    var url := FileURLFor(GetFileName(fileName, alnum));
    match url
    case CachesDirectory =>
      StoreStep(Failure(FailedToWrite), store)
    case CachedFile(name) =>
      if writeSucceeds && store.cachesExists then
        StoreStep(Success(url), store.(files := store.files[name := imageData]))
      else StoreStep(Failure(FailedToWrite), store)
  }

  /** What `loadImage` can throw: one of the store's own errors, or the error
      `Data(contentsOf:)` throws when the read fails, which is passed on as is. */
  datatype LoadError = Storage(kind: ImageStorageError) | ReadFailed

  /** `loadImage`: `fileNotFound` when nothing exists at the name,
      `invalidImageData` when the stored bytes do not decode, and otherwise the
      decoded image. Reading the caches directory itself always fails. */
  function LoadImage<Image>(store: Store, fileName: string, alnum: Alphanumerics,
                            readSucceeds: bool, decode: Data -> Option<Image>)
    : (r: Result<Image, LoadError>)
    ensures var name := GetFileName(fileName, alnum);
            (r == Failure(Storage(FileNotFound)) <==>
               !store.cachesExists || (name != "" && name !in store.files)) &&
            (r == Failure(ReadFailed) <==>
               store.cachesExists && (name == "" || (name in store.files && !readSucceeds))) &&
            (r == Failure(Storage(InvalidImageData)) <==>
               store.cachesExists && name != "" && name in store.files && readSucceeds &&
               decode(store.files[name]).None?) &&
            (r.Success? <==>
               store.cachesExists && name != "" && name in store.files && readSucceeds &&
               decode(store.files[name]).Some?) &&
            (r.Success? ==> decode(store.files[name]) == Some(r.value))
  {
    var url := FileURLFor(GetFileName(fileName, alnum));
    if !FileExists(store, url) then Failure(Storage(FileNotFound))
    else
      match url
      case CachesDirectory => Failure(ReadFailed)
      case CachedFile(name) =>
        if !readSucceeds then Failure(ReadFailed)
        else
          match decode(store.files[name])
          case None => Failure(Storage(InvalidImageData))
          case Some(image) => Success(image)
  }

  /** `FileManager.default.removeItem(at:)` when it succeeds: what it removes
      no longer exists; removing a file leaves every other file as it was, and
      removing the caches directory takes the directory and every file with it. */
  function Removed(store: Store, url: FileURL): (after: Store)
    ensures !FileExists(after, url)
    ensures url.CachedFile? ==>
              after.cachesExists == store.cachesExists && after.files == store.files - {url.name}
    ensures url.CachesDirectory? ==> !after.cachesExists && after.files == map[]
  {
    match url
    case CachesDirectory => Store(false, map[])
    case CachedFile(name) => store.(files := store.files - {name})
  }

  /** `deleteImage` exactly as written: `fileNotFound` when nothing exists at
      the name, `failedToDelete` when the removal fails, and otherwise the
      removal. Since the caches directory itself exists, a file name that
      sanitises to "" removes the caches directory and the whole cache. */
  function DeleteImageAsWritten(store: Store, fileName: string, alnum: Alphanumerics,
                                removeSucceeds: bool)
    : (step: StoreStep<()>)
    ensures var name := GetFileName(fileName, alnum);
            (step.result == Failure(FileNotFound) <==>
               !store.cachesExists || (name != "" && name !in store.files)) &&
            (step.result.Success? <==>
               removeSucceeds && store.cachesExists && (name == "" || name in store.files)) &&
            (step.result == Failure(FailedToDelete) <==>
               !removeSucceeds && store.cachesExists && (name == "" || name in store.files)) &&
            (step.result.Failure? ==> step.store == store) &&
            (step.result.Success? && name != "" ==> step.store == Store(true, store.files - {name})) &&
            (step.result.Success? && name == "" ==> step.store == Store(false, map[]))
  {
    var url := FileURLFor(GetFileName(fileName, alnum));
    if !FileExists(store, url) then StoreStep(Failure(FileNotFound), store)
    else if !removeSucceeds then StoreStep(Failure(FailedToDelete), store)
    else StoreStep(Success(()), Removed(store, url))
  }

  /** Deleting the image stored under "" (the key of "", "?", "##", ...)
      removes the caches directory itself. From then on the cache is broken,
      not merely empty: every save fails with `failedToWrite`, every load and
      every further delete reports `fileNotFound`. */
  lemma DeleteEmptyNameWipesCache<Image>(store: Store, alnum: Alphanumerics, imageData: Data,
                                         fileName: string, fileExtension: string,
                                         writeSucceeds: bool, readSucceeds: bool,
                                         removeSucceeds: bool, decode: Data -> Option<Image>)
    requires store.cachesExists
    ensures DeleteImageAsWritten(store, "", alnum, true) == StoreStep(Success(()), Store(false, map[]))
    ensures var wiped := Store(false, map[]);
            && SaveImage(wiped, imageData, fileName, fileExtension, alnum, writeSucceeds).result
               == Failure(FailedToWrite)
            && LoadImage(wiped, fileName, alnum, readSucceeds, decode) == Failure(Storage(FileNotFound))
            && DeleteImageAsWritten(wiped, fileName, alnum, removeSucceeds).result == Failure(FileNotFound)
  {
    DegenerateFileNames(alnum);
  }

  /** `deleteImage` as evidently intended: the empty name denotes no image, so
      it reports `fileNotFound`; otherwise the image's own file is removed, the
      caches directory stays, and every other file stays as it was. */
  function DeleteImage(store: Store, fileName: string, alnum: Alphanumerics,
                       removeSucceeds: bool)
    : (step: StoreStep<()>)
    ensures var name := GetFileName(fileName, alnum);
            (step.result == Failure(FileNotFound) <==>
               name == "" || !store.cachesExists || name !in store.files) &&
            (step.result == Failure(FailedToDelete) <==>
               name != "" && store.cachesExists && name in store.files && !removeSucceeds) &&
            (step.result.Success? <==>
               name != "" && store.cachesExists && name in store.files && removeSucceeds) &&
            (step.result.Success? ==> step.store == Store(true, store.files - {name})) &&
            (step.result.Failure? ==> step.store == store)
    ensures step.store.cachesExists == store.cachesExists
  {
    var url := FileURLFor(GetFileName(fileName, alnum));
    if url.CachesDirectory? || !FileExists(store, url) then
      StoreStep(Failure(FileNotFound), store)
    else if !removeSucceeds then StoreStep(Failure(FailedToDelete), store)
    else StoreStep(Success(()), Removed(store, url))
  }

  /** On names that denote an image file the two versions agree. */
  lemma DeleteImageMatchesAsWritten(store: Store, fileName: string, alnum: Alphanumerics,
                                    removeSucceeds: bool)
    requires GetFileName(fileName, alnum) != ""
    ensures DeleteImage(store, fileName, alnum, removeSucceeds)
         == DeleteImageAsWritten(store, fileName, alnum, removeSucceeds)
  {
  }

  // ---------------------------------------------------------------------------
  // Round trips
  // ---------------------------------------------------------------------------

  /** After a successful save, loading the same name yields the decoding of the
      bytes just saved: the image when they decode, `invalidImageData` when not. */
  lemma SaveThenLoad<Image>(store: Store, imageData: Data, fileName: string,
                            fileExtension: string, alnum: Alphanumerics,
                            decode: Data -> Option<Image>)
    requires SaveImage(store, imageData, fileName, fileExtension, alnum, true).result.Success?
    ensures var saved := SaveImage(store, imageData, fileName, fileExtension, alnum, true).store;
            LoadImage(saved, fileName, alnum, true, decode) ==
              match decode(imageData)
              case Some(image) => Success(image)
              case None => Failure(Storage(InvalidImageData))
  {
  }

  /** A second save under the same name replaces the first: the file holds
      exactly the second payload, never a mixture. */
  lemma SaveOverwrites(store: Store, first: Data, second: Data, fileName: string,
                       alnum: Alphanumerics)
    requires GetFileName(fileName, alnum) != "" && store.cachesExists
    ensures var once := SaveImage(store, first, fileName, "jpg", alnum, true).store;
            var twice := SaveImage(once, second, fileName, "jpg", alnum, true).store;
            twice == Store(true, store.files[GetFileName(fileName, alnum) := second])
  {
    var name := GetFileName(fileName, alnum);
    assert store.files[name := first][name := second] == store.files[name := second];
  }

  /** The extension argument never affects the file written or the URL returned. */
  lemma SaveIgnoresExtension(store: Store, imageData: Data, fileName: string,
                             ext1: string, ext2: string, alnum: Alphanumerics, writeSucceeds: bool)
    ensures SaveImage(store, imageData, fileName, ext1, alnum, writeSucceeds)
         == SaveImage(store, imageData, fileName, ext2, alnum, writeSucceeds)
  {
  }

  /** After a successful delete, loading the same name reports `fileNotFound`. */
  lemma DeleteThenLoad<Image>(store: Store, fileName: string, alnum: Alphanumerics,
                              readSucceeds: bool, decode: Data -> Option<Image>)
    requires DeleteImage(store, fileName, alnum, true).result.Success?
    ensures var after := DeleteImage(store, fileName, alnum, true).store;
            LoadImage(after, fileName, alnum, readSucceeds, decode) == Failure(Storage(FileNotFound))
  {
  }

  // ---------------------------------------------------------------------------
  // Serialised writers
  // ---------------------------------------------------------------------------

  /** One `saveImage` call on a fixed name: the payload, and whether the
      platform write succeeds. */
  datatype Write = Write(data: Data, succeeds: bool)

  /** The actor runs saves one after another. It does not promise to run them
      in the order they were issued; `writes` is the order they ran in, whatever
      that was. */
  function SaveAll(store: Store, fileName: string, alnum: Alphanumerics,
                   writes: seq<Write>): Store
    decreases |writes|
  {
    if |writes| == 0 then store
    else
      var step := SaveImage(store, writes[0].data, fileName, "jpg", alnum, writes[0].succeeds);
      SaveAll(step.store, fileName, alnum, writes[1..])
  }

  /** The payload of the last write that succeeds, if any does. */
  function LastStored(writes: seq<Write>): (last: Option<Data>)
    ensures last.None? <==> forall i :: 0 <= i < |writes| ==> !writes[i].succeeds
    ensures last.Some? ==>
              exists i :: 0 <= i < |writes| && writes[i].succeeds && writes[i].data == last.value &&
                          forall j :: i < j < |writes| ==> !writes[j].succeeds
    decreases |writes|
  {
    if |writes| == 0 then None
    else
      match LastStored(writes[1..])
      case Some(d) =>
        var i :| 0 < i + 1 <= |writes[1..]| && writes[1..][i].succeeds && writes[1..][i].data == d &&
                 forall j :: i < j < |writes[1..]| ==> !writes[1..][j].succeeds;
        assert writes[i + 1] == writes[1..][i];
        assert forall j :: i + 1 < j < |writes| ==> writes[j] == writes[1..][j - 1];
        Some(d)
      case None =>
        if writes[0].succeeds then
          assert forall j :: 0 < j < |writes| ==> writes[j] == writes[1..][j - 1];
          Some(writes[0].data)
        else
          assert forall j :: 0 < j < |writes| ==> writes[j] == writes[1..][j - 1];
          None
  }

  /** However many saves of one name run, the file ends up holding exactly the
      payload of the last one that succeeded (untouched when none did), and no
      other file changes. */
  lemma {:induction false} SerialSavesKeepLastPayload(store: Store, fileName: string,
                                                      alnum: Alphanumerics, writes: seq<Write>)
    ensures var name := GetFileName(fileName, alnum);
            SaveAll(store, fileName, alnum, writes) ==
              if name == "" || !store.cachesExists then store
              else match LastStored(writes)
                   case Some(d) => Store(true, store.files[name := d])
                   case None => store
    decreases |writes|
  {
    var name := GetFileName(fileName, alnum);
    if |writes| > 0 {
      var next := SaveImage(store, writes[0].data, fileName, "jpg", alnum, writes[0].succeeds).store;
      SerialSavesKeepLastPayload(next, fileName, alnum, writes[1..]);
      if name != "" && store.cachesExists {
        assert next.cachesExists;
        match LastStored(writes[1..])
        case Some(d) =>
          assert LastStored(writes) == Some(d);
          assert next.files[name := d] == store.files[name := d];
        case None =>
          assert LastStored(writes) == if writes[0].succeeds then Some(writes[0].data) else None;
      }
    }
  }
}

=== FILE: network_endpoints.dfy ===
/** What a request is made of (`Endpoint`, its default extension and the
    app's one conformer `RecipesEndpoint`), the HTTP methods, and the
    environments' base URLs. */
module NetworkEndpoints {
  import opened Wrappers

  /** `HTTPMethod`, with its `String` raw values. */
  datatype HttpMethod = Get | Post | Put | Delete {

    function RawValue(): string {
      match this
      case Get => "GET"
      case Post => "POST"
      case Put => "PUT"
      case Delete => "DELETE"
    }

    /** The synthesised `HTTPMethod(rawValue:)`. */
    static function FromRawValue(raw: string): Option<HttpMethod> {
      if raw == "GET" then Some(Get)
      else if raw == "POST" then Some(Post)
      else if raw == "PUT" then Some(Put)
      else if raw == "DELETE" then Some(Delete)
      else None
    }
  }

  /** Raw values are distinct and read back to their method, and no other
      string names a method. */
  lemma RawValueRoundTrip(m: HttpMethod, raw: string)
    ensures HttpMethod.FromRawValue(m.RawValue()) == Some(m)
    ensures HttpMethod.FromRawValue(raw).Some? ==> HttpMethod.FromRawValue(raw).value.RawValue() == raw
  {
  }

  type Headers = map<string, string>

  const JsonContentType: Headers := map["Content-Type" := "application/json"]

  /** The properties an `Endpoint` exposes, once its own overrides and the
      protocol's defaults are settled. `Body` stands for the `Encodable`
      value a request may carry. */
  datatype Endpoint<Body> = Endpoint(
    baseURL: Option<string>,
    path: Option<string>,
    httpMethod: HttpMethod,
    body: Option<Body>,
    headers: Headers,
    queryParameters: Option<map<string, string>>)

  /** An endpoint that overrides nothing but its method (which the protocol
      extension does not supply): the extension's defaults for the rest. */
  function DefaultEndpoint<Body>(httpMethod: HttpMethod): (e: Endpoint<Body>)
    ensures e.baseURL.None? && e.path.None? && e.body.None? && e.queryParameters.None?
    ensures e.headers == JsonContentType && e.httpMethod == httpMethod
  {
    Endpoint(None, None, httpMethod, None, JsonContentType, None)
  }

  /** The string `fullURL` hands to `URL(string:)`, if any. */
  function FullURLString<Body>(e: Endpoint<Body>): Option<string> {
    match (e.baseURL, e.path)
    case (Some(base), Some(path)) => Some(base + path)
    case (None, Some(path)) => Some(path)
    case (_, None) => None
  }

  /** `fullURL`: `parse` stands for `URL(string:)`. */
  function FullURL<Body, URL>(e: Endpoint<Body>, parse: string -> Option<URL>): (u: Option<URL>)
    ensures e.path.None? ==> u.None?
    ensures e.path.Some? && e.baseURL.Some? ==> u == parse(e.baseURL.value + e.path.value)
    ensures e.path.Some? && e.baseURL.None? ==> u == parse(e.path.value)
  {
    match FullURLString(e)
    case None => None
    case Some(s) => parse(s)
  }

  /** `AppEnvironment` */
  datatype AppEnvironment = Dev | Stage | Prod {
    function BaseURL(): string {
      match this
      case Dev => "https://d3jbb8n5wk0qxi.cloudfront.net"
      case Stage => "https://d3jbb8n5wk0qxi.cloudfront.net"
      case Prod => "https://d3jbb8n5wk0qxi.cloudfront.net"
    }
  }

  const RecipesHost := "https://d3jbb8n5wk0qxi.cloudfront.net"

  /** Every environment points at the same host. */
  lemma EnvironmentsShareBaseURL(env: AppEnvironment)
    ensures env.BaseURL() == AppEnvironment.Dev.BaseURL() == RecipesHost
  {
  }

  /** `APIConfiguration.environment`: `.dev` in debug builds, `.prod` otherwise. */
  function ConfiguredEnvironment(debugBuild: bool): (env: AppEnvironment)
    ensures env != Stage && (env == Dev <==> debugBuild)
    ensures env.BaseURL() == RecipesHost
  {
    if debugBuild then Dev else Prod
  }

  /** `RecipesEndpoint` */
  datatype RecipesEndpoint = Recipes | Image(urlString: string) {

    /** The endpoint's properties: its own overrides of `baseURL`, `path`,
        `method` and `headers`, and the protocol defaults for `body` and
        `queryParameters`. */
    function AsEndpoint<Body>(): (e: Endpoint<Body>)
      ensures e.httpMethod == Get
      ensures e.body.None? && e.queryParameters.None?
      ensures Recipes? ==> e.baseURL == Some(RecipesHost) && e.path == Some("/recipes.json") &&
                           e.headers == JsonContentType
      ensures Image? ==> e.baseURL.None? && e.path == Some(urlString) && e.headers == map[]
    {
      match this
      case Recipes => Endpoint(Some(AppEnvironment.Dev.BaseURL()), Some("/recipes.json"), Get,
                               None, JsonContentType, None)
      case Image(s) => Endpoint(None, Some(s), Get, None, map[], None)
    }
  }

  /** `.recipes` resolves to the recipe list on the app's host; `.image(s)`
      resolves to `s` itself. */
  lemma RecipesEndpointFullURL<Body, URL>(parse: string -> Option<URL>, s: string)
    ensures FullURL(RecipesEndpoint.Recipes.AsEndpoint<Body>(), parse)
         == parse("https://d3jbb8n5wk0qxi.cloudfront.net/recipes.json")
    ensures FullURL(RecipesEndpoint.Image(s).AsEndpoint<Body>(), parse) == parse(s)
  {
    assert RecipesHost + "/recipes.json" == "https://d3jbb8n5wk0qxi.cloudfront.net/recipes.json";
  }
}

=== FILE: network_errors.dfy ===
/** `NetworkError` and its user-facing `errorDescription`. */
module NetworkErrors {
  import opened Wrappers
  import opened Decimal

  datatype NetworkError =
    | UnknownError(code: int)
    | NetworkError(message: string)
    | InvalidURL
    | InvalidResponse
    | DecodingFailed(message: string)
    | ClientError(code: int)
    | ServerError(code: int)

  const UnknownErrorPrefix := "An unknown error occurred with status code "
  const ClientErrorPrefix := "Client error occurred with status code "
  const ServerErrorPrefix := "Server error occurred with status code "
  const DecodingFailedPrefix := "Failed to decode the response: "
  const InvalidURLDescription := "The URL provided is invalid."
  const InvalidResponseDescription := "Invalid response received from the server."

  /** `errorDescription` */
  function ErrorDescription(e: NetworkError): (d: Option<string>)
    ensures d.Some?
  {
    match e
    case UnknownError(code) => Some(UnknownErrorPrefix + IntToDecimal(code) + ".")
    case NetworkError(message) => Some(message)
    case InvalidURL => Some(InvalidURLDescription)
    case InvalidResponse => Some(InvalidResponseDescription)
    case DecodingFailed(message) => Some(DecodingFailedPrefix + message)
    case ClientError(code) => Some(ClientErrorPrefix + IntToDecimal(code) + ".")
    case ServerError(code) => Some(ServerErrorPrefix + IntToDecimal(code) + ".")
  }

  /** The status code a coded description carries: what lies between the
      fixed sentence and the closing period, read as a decimal. */
  function CodeIn(description: string, prefix: string): Option<int> {
    if |description| > |prefix| + 1 && description[..|prefix|] == prefix &&
       description[|description| - 1] == '.'
    then
      var digits := description[|prefix|..|description| - 1];
      if (digits[0] == '-' || IsDigit(digits[0])) &&
         forall i :: 0 < i < |digits| ==> IsDigit(digits[i])
      then Some(ParseDecimal(digits))
      else None
    else None
  }

  lemma CodeInRendered(prefix: string, code: int)
    ensures CodeIn(prefix + IntToDecimal(code) + ".", prefix) == Some(code)
  {
    var rendered := IntToDecimal(code);
    var d := prefix + rendered + ".";
    DecimalRoundTrip(code);
    assert d[..|prefix|] == prefix;
    assert d[|prefix|..|d| - 1] == rendered;
  }

  /** The descriptions of `clientError`, `serverError` and `unknownError` each
      embed their status code in decimal: reading it back gives the code. */
  lemma DescriptionsCarryCode(code: int)
    ensures CodeIn(ErrorDescription(ClientError(code)).value, ClientErrorPrefix) == Some(code)
    ensures CodeIn(ErrorDescription(ServerError(code)).value, ServerErrorPrefix) == Some(code)
    ensures CodeIn(ErrorDescription(UnknownError(code)).value, UnknownErrorPrefix) == Some(code)
  {
    CodeInRendered(ClientErrorPrefix, code);
    CodeInRendered(ServerErrorPrefix, code);
    CodeInRendered(UnknownErrorPrefix, code);
  }

  /** The free-text cases pass their message through: `networkError(m)` is
      described by exactly `m`, `decodingFailed(m)` by the fixed sentence
      followed by exactly `m`, so the message can be recovered. */
  lemma DescriptionsCarryMessage(message: string)
    ensures ErrorDescription(NetworkError(message)) == Some(message)
    ensures var d := ErrorDescription(DecodingFailed(message)).value;
            |d| >= |DecodingFailedPrefix| && d[..|DecodingFailedPrefix|] == DecodingFailedPrefix &&
            d[|DecodingFailedPrefix|..] == message
  {
    var d := DecodingFailedPrefix + message;
    assert d[|DecodingFailedPrefix|..] == message;
  }

  lemma FirstCharOfCoded(prefix: string, code: int)
    requires |prefix| > 0
    ensures (prefix + IntToDecimal(code) + ".")[0] == prefix[0]
  {
  }

  /** Two errors of one coded kind with the same description have the same code,
      and the three coded kinds never share a description. */
  lemma CodedDescriptionsDistinct(a: int, b: int)
    ensures ErrorDescription(ClientError(a)) == ErrorDescription(ClientError(b)) ==> a == b
    ensures ErrorDescription(ServerError(a)) == ErrorDescription(ServerError(b)) ==> a == b
    ensures ErrorDescription(UnknownError(a)) == ErrorDescription(UnknownError(b)) ==> a == b
    ensures ErrorDescription(ClientError(a)) != ErrorDescription(ServerError(b))
    ensures ErrorDescription(ClientError(a)) != ErrorDescription(UnknownError(b))
    ensures ErrorDescription(ServerError(a)) != ErrorDescription(UnknownError(b))
  {
    DescriptionsCarryCode(a);
    DescriptionsCarryCode(b);
    FirstCharOfCoded(ClientErrorPrefix, a);
    FirstCharOfCoded(ServerErrorPrefix, a);
    FirstCharOfCoded(ServerErrorPrefix, b);
    FirstCharOfCoded(UnknownErrorPrefix, b);
  }
}

=== FILE: network_service.dfy ===
/** `NetworkService`: builds a request from an endpoint, runs it through the
    injected session, checks the HTTP status, and turns `URLError`s into
    `NetworkError`s. The session, URL parsing, JSON coding and the build
    configuration are inputs, collected in `Platform`. */
module NetworkService {
  import opened Wrappers
  import opened ByteData
  import opened NetworkErrors
  import opened NetworkEndpoints

  // ---------------------------------------------------------------------------
  // Platform types
  // ---------------------------------------------------------------------------

  /** `URLError.Code`, by its raw value. */
  datatype URLErrorCode = URLErrorCode(rawValue: int)

  const NotConnectedToInternet := URLErrorCode(-1009)
  const TimedOut := URLErrorCode(-1001)
  const CannotFindHost := URLErrorCode(-1003)
  const CannotConnectToHost := URLErrorCode(-1004)
  const BadServerResponse := URLErrorCode(-1011)
  const UnsupportedURL := URLErrorCode(-1002)

  datatype URLError = URLError(code: URLErrorCode, localizedDescription: string)

  /** Anything a call may throw: a `URLError`, a `NetworkError`, or any other
      error (known here only by its description). */
  datatype Thrown =
    | ThrownURLError(urlError: URLError)
    | ThrownNetworkError(networkError: NetworkError)
    | ThrownOther(description: string)

  /** A `URLResponse`: an `HTTPURLResponse` with its status code, or another kind. */
  datatype URLResponse = HTTPURLResponse(statusCode: int) | OtherResponse

  /** A `URLRequest`, its URL given by its absolute string. */
  datatype URLRequest = URLRequest(
    url: string,
    httpMethod: string,
    allHTTPHeaderFields: Headers,
    httpBody: Option<Data>)

  /** What `session.data(for:)` does with a request. */
  datatype SessionResult = Delivered(data: Data, response: URLResponse) | SessionThrew(error: Thrown)

  /** What `JSONDecoder.decode` does with the response bytes. */
  datatype DecodeOutcome<T> =
    | Decoded(value: T)
    | DecodingError(localizedDescription: string)
    | OtherDecodeError(localizedDescription: string)

  /** The collaborators a `NetworkService` relies on.
      - `environment`: `APIConfiguration.environment`.
      - `resolveURL`: `URLComponents(string:)`, then `queryItems` from the
        parameters, then `.url`; None when either step yields nil.
      - `encode`: `JSONEncoder().encode`, failing with the error's description.
      - `session`: the injected `URLSessionProtocol`. */
  datatype Platform<!Body> = Platform(
    environment: AppEnvironment,
    resolveURL: (string, Option<map<string, string>>) -> Option<string>,
    encode: Body -> Result<Data, string>,
    session: URLRequest -> SessionResult)

  // ---------------------------------------------------------------------------
  // validateResponse
  // ---------------------------------------------------------------------------

  /** `validateResponse`: 2xx passes, 4xx is a client error, 5xx a server
      error, and every other code an unknown error, each carrying the code. */
  function ValidateResponse(statusCode: int): (r: Result<(), NetworkError>)
    ensures r.Success? <==> 200 <= statusCode <= 299
    ensures r == Failure(ClientError(statusCode)) <==> 400 <= statusCode <= 499
    ensures r == Failure(ServerError(statusCode)) <==> 500 <= statusCode <= 599
    ensures r == Failure(UnknownError(statusCode)) <==>
              !(200 <= statusCode <= 299 || 400 <= statusCode <= 499 || 500 <= statusCode <= 599)
  {
    if 200 <= statusCode <= 299 then Success(())
    else if 400 <= statusCode <= 499 then Failure(ClientError(statusCode))
    else if 500 <= statusCode <= 599 then Failure(ServerError(statusCode))
    else Failure(UnknownError(statusCode))
  }

  /** An independent reading of the status classes: by the hundreds digit. */
  function StatusClass(statusCode: int): Result<(), NetworkError> {
    if statusCode < 0 then Failure(UnknownError(statusCode))
    else
      match statusCode / 100
      case 2 => Success(())
      case 4 => Failure(ClientError(statusCode))
      case 5 => Failure(ServerError(statusCode))
      case _ => Failure(UnknownError(statusCode))
  }

  /** The four outcomes of validation partition the integers exactly as the
      hundreds digit does: 1xx, 3xx, 6xx and up, and negatives are unknown. */
  lemma ValidateResponseByHundreds(statusCode: int)
    ensures ValidateResponse(statusCode) == StatusClass(statusCode)
  {
    if statusCode >= 0 {
      var h := statusCode / 100;
      assert 100 * h <= statusCode < 100 * h + 100;
    }
  }

  // ---------------------------------------------------------------------------
  // mapURLError
  // ---------------------------------------------------------------------------

  /** The `errorMapping` dictionary of `mapURLError`. */
  const ErrorMapping: map<URLErrorCode, string> := map[
    NotConnectedToInternet := "No internet connection.",
    TimedOut := "The request timed out. Please try again later.",
    CannotFindHost := "Unable to find the host. Check the server URL.",
    CannotConnectToHost := "Unable to connect to the server. Please try again later.",
    BadServerResponse := "The server returned an invalid response.",
    UnsupportedURL := "The requested URL is not supported."]

  /** `mapURLError`: a `networkError` whose message is the mapped text for the
      error's code, or the error's own description when the code is not mapped. */
  function MapURLError(error: URLError): (e: NetworkError)
    ensures e.NetworkError?
    ensures error.code in ErrorMapping ==> e.message == ErrorMapping[error.code]
    ensures error.code !in ErrorMapping ==> e.message == error.localizedDescription
  {
    NetworkError(if error.code in ErrorMapping then ErrorMapping[error.code]
                 else error.localizedDescription)
  }

  /** The six listed codes get their fixed messages whatever the error's own
      description says; every other code falls back to that description. The
      user sees exactly the message. */
  lemma MapURLErrorMessages(description: string, raw: int)
    ensures MapURLError(URLError(NotConnectedToInternet, description)) == NetworkError("No internet connection.")
    ensures MapURLError(URLError(TimedOut, description))
         == NetworkError("The request timed out. Please try again later.")
    ensures MapURLError(URLError(CannotFindHost, description))
         == NetworkError("Unable to find the host. Check the server URL.")
    ensures MapURLError(URLError(CannotConnectToHost, description))
         == NetworkError("Unable to connect to the server. Please try again later.")
    ensures MapURLError(URLError(BadServerResponse, description))
         == NetworkError("The server returned an invalid response.")
    ensures MapURLError(URLError(UnsupportedURL, description))
         == NetworkError("The requested URL is not supported.")
    ensures raw !in {-1009, -1001, -1003, -1004, -1011, -1002} ==>
              MapURLError(URLError(URLErrorCode(raw), description)) == NetworkError(description)
    ensures ErrorDescription(MapURLError(URLError(URLErrorCode(raw), description)))
         == Some(MapURLError(URLError(URLErrorCode(raw), description)).message)
  {
    assert ErrorMapping.Keys == {NotConnectedToInternet, TimedOut, CannotFindHost,
                                 CannotConnectToHost, BadServerResponse, UnsupportedURL};
  }

  /** The catch clauses of `fetch` and `fetchData`: a `URLError` is translated
      by `mapURLError`, anything else is rethrown as it is. */
  function Rethrown(error: Thrown): (rethrown: Thrown)
    ensures !rethrown.ThrownURLError?
    ensures error.ThrownURLError? ==> rethrown == ThrownNetworkError(MapURLError(error.urlError))
    ensures !error.ThrownURLError? ==> rethrown == error
  {
    match error
    case ThrownURLError(u) => ThrownNetworkError(MapURLError(u))
    case _ => error
  }

  // ---------------------------------------------------------------------------
  // createRequest, performRequest, fetchData, fetch
  // ---------------------------------------------------------------------------

  /** The string `createRequest` hands to `URLComponents(string:)`: the
      environment's base URL followed by the endpoint's path, if any. The
      endpoint's own `baseURL` plays no part. */
  function RequestURLString<Body>(endpoint: Endpoint<Body>, environment: AppEnvironment)
    : (urlString: string)
    ensures |urlString| >= |RecipesHost| && urlString[..|RecipesHost|] == RecipesHost
    ensures urlString[|RecipesHost|..] == if endpoint.path.Some? then endpoint.path.value else ""
  {
    environment.BaseURL() + endpoint.path.GetOr("")
  }

  const EncodeFailurePrefix := "Failed to encode request body: "

  /** `createRequest`: `invalidURL` when the URL cannot be formed,
      `decodingFailed` when the body does not encode, and otherwise a request
      carrying the endpoint's method, headers and encoded body. */
  function CreateRequest<Body>(endpoint: Endpoint<Body>, platform: Platform<Body>)
    : (r: Result<URLRequest, Thrown>)
    ensures var resolved := platform.resolveURL(RequestURLString(endpoint, platform.environment),
                                                endpoint.queryParameters);
            (r == Failure(ThrownNetworkError(InvalidURL)) <==> resolved.None?) &&
            (r.Success? <==>
               resolved.Some? && (endpoint.body.None? || platform.encode(endpoint.body.value).Success?)) &&
            (r.Success? ==>
               r.value.url == resolved.value &&
               r.value.httpMethod == endpoint.httpMethod.RawValue() &&
               r.value.allHTTPHeaderFields == endpoint.headers &&
               (endpoint.body.None? ==> r.value.httpBody.None?) &&
               (endpoint.body.Some? ==> r.value.httpBody == Some(platform.encode(endpoint.body.value).value))) &&
            (resolved.Some? && endpoint.body.Some? && platform.encode(endpoint.body.value).Failure? ==>
               r == Failure(ThrownNetworkError(DecodingFailed(
                      EncodeFailurePrefix + platform.encode(endpoint.body.value).error))))
  {
    var urlString := RequestURLString(endpoint, platform.environment);
    match platform.resolveURL(urlString, endpoint.queryParameters)
    case None => Failure(ThrownNetworkError(InvalidURL))
    case Some(url) =>
      var request := URLRequest(url, endpoint.httpMethod.RawValue(), endpoint.headers, None);
      match endpoint.body
      case None => Success(request)
      case Some(body) =>
        match platform.encode(body)
        case Failure(description) =>
          Failure(ThrownNetworkError(DecodingFailed(EncodeFailurePrefix + description)))
        case Success(encoded) => Success(request.(httpBody := Some(encoded)))
  }

  /** The request built for `.recipes`: a GET of the recipe list with the JSON
      content type, whatever the build configuration. */
  lemma RecipesRequest<Body>(platform: Platform<Body>)
    ensures var expected := "https://d3jbb8n5wk0qxi.cloudfront.net/recipes.json";
            CreateRequest(RecipesEndpoint.Recipes.AsEndpoint<Body>(), platform) ==
              match platform.resolveURL(expected, None)
              case None => Failure(ThrownNetworkError(InvalidURL))
              case Some(url) => Success(URLRequest(url, "GET", map["Content-Type" := "application/json"], None))
  {
    assert RecipesHost + "/recipes.json" == "https://d3jbb8n5wk0qxi.cloudfront.net/recipes.json";
  }

  /** For `.image(s)` the request URL is the host followed by `s`, while
      `fullURL` is `s` alone: the two never agree. */
  lemma ImageRequestPrefixesHost<Body>(s: string, environment: AppEnvironment)
    ensures RequestURLString(RecipesEndpoint.Image(s).AsEndpoint<Body>(), environment) == RecipesHost + s
    ensures FullURLString(RecipesEndpoint.Image(s).AsEndpoint<Body>()) == Some(s)
    ensures RecipesHost + s != s
  {
  }

  /** `APIConfiguration.environment` differs between debug and release builds,
      but the request URL does not. */
  lemma RequestURLIgnoresBuild<Body>(endpoint: Endpoint<Body>)
    ensures RequestURLString(endpoint, ConfiguredEnvironment(true))
         == RequestURLString(endpoint, ConfiguredEnvironment(false))
  {
  }

  /** `performRequest`: the created request's errors, then the session's
      errors, then `invalidResponse` for a non-HTTP response, then the status
      check; on success the session's bytes and status code. */
  function PerformRequest<Body>(endpoint: Endpoint<Body>, platform: Platform<Body>)
    : (r: Result<(Data, int), Thrown>)
    ensures var created := CreateRequest(endpoint, platform);
            (created.Failure? ==> r == Failure(created.error)) &&
            (created.Success? && platform.session(created.value).SessionThrew? ==>
               r == Failure(platform.session(created.value).error))
    ensures r.Success? ==>
              var answer := platform.session(CreateRequest(endpoint, platform).value);
              answer == Delivered(r.value.0, HTTPURLResponse(r.value.1)) && 200 <= r.value.1 <= 299
  {
    match CreateRequest(endpoint, platform)
    case Failure(e) => Failure(e)
    case Success(request) =>
      match platform.session(request)
      case SessionThrew(e) => Failure(e)
      case Delivered(data, response) =>
        match response
        case OtherResponse => Failure(ThrownNetworkError(InvalidResponse))
        case HTTPURLResponse(code) =>
          match ValidateResponse(code)
          case Failure(e) => Failure(ThrownNetworkError(e))
          case Success(_) => Success((data, code))
  }

  /** The session answers with a 2xx HTTP response. */
  predicate DeliversSuccess(result: SessionResult) {
    result.Delivered? && result.response.HTTPURLResponse? &&
    200 <= result.response.statusCode <= 299
  }

  /** `fetchData`: the response bytes of a request whose status validates,
      byte for byte; an error from building the request reaches the caller
      unchanged; no `URLError` ever escapes untranslated. */
  function FetchData<Body>(endpoint: Endpoint<Body>, platform: Platform<Body>)
    : (r: Result<Data, Thrown>)
    ensures var created := CreateRequest(endpoint, platform);
            (r.Success? <==> created.Success? && DeliversSuccess(platform.session(created.value))) &&
            (r.Success? ==> r.value == platform.session(created.value).data) &&
            (created.Failure? ==> r == Failure(created.error))
    ensures r.Failure? ==> !r.error.ThrownURLError?
  {
    match PerformRequest(endpoint, platform)
    case Failure(e) => Failure(Rethrown(e))
    case Success((data, _)) => Success(data)
  }

  /** How `fetchData` routes each thing the session can do with the request:
      a thrown `URLError` becomes its mapped `networkError`, any other thrown
      error passes unchanged, a non-HTTP response is `invalidResponse` whatever
      its bytes, and a status outside 2xx is the validation error. */
  lemma FetchDataRouting<Body>(endpoint: Endpoint<Body>, platform: Platform<Body>, request: URLRequest)
    requires CreateRequest(endpoint, platform) == Success(request)
    ensures var answer := platform.session(request);
            var r := FetchData(endpoint, platform);
            (answer.SessionThrew? && answer.error.ThrownURLError? ==>
               r == Failure(ThrownNetworkError(MapURLError(answer.error.urlError)))) &&
            (answer.SessionThrew? && !answer.error.ThrownURLError? ==> r == Failure(answer.error)) &&
            (answer.Delivered? && answer.response.OtherResponse? ==>
               r == Failure(ThrownNetworkError(InvalidResponse))) &&
            (answer.Delivered? && answer.response.HTTPURLResponse? &&
             ValidateResponse(answer.response.statusCode).Failure? ==>
               r == Failure(ThrownNetworkError(ValidateResponse(answer.response.statusCode).error)))
  {
  }

  /** `decodeData`: a `DecodingError` and any other decoder error both become
      `decodingFailed`, with different message prefixes. */
  function DecodeData<T>(data: Data, decoder: Data -> DecodeOutcome<T>): (r: Result<T, NetworkError>)
    ensures r.Success? <==> decoder(data).Decoded?
    ensures r.Success? ==> r.value == decoder(data).value
    ensures r.Failure? ==> r.error.DecodingFailed?
    ensures decoder(data).DecodingError? ==>
              r.error.message == "Decoding error: " + decoder(data).localizedDescription
    ensures decoder(data).OtherDecodeError? ==>
              r.error.message == "Unexpected decoding error: " + decoder(data).localizedDescription
  {
    match decoder(data)
    case Decoded(value) => Success(value)
    case DecodingError(description) => Failure(DecodingFailed("Decoding error: " + description))
    case OtherDecodeError(description) => Failure(DecodingFailed("Unexpected decoding error: " + description))
  }

  /** `fetch`: `performRequest`, then `decodeData`, with the same error routing
      as `fetchData`. */
  function Fetch<Body, T>(endpoint: Endpoint<Body>, platform: Platform<Body>,
                          decoder: Data -> DecodeOutcome<T>)
    : (r: Result<T, Thrown>)
    ensures r.Failure? ==> !r.error.ThrownURLError?
  {
    match PerformRequest(endpoint, platform)
    case Failure(e) => Failure(Rethrown(e))
    case Success((data, _)) =>
      match DecodeData(data, decoder)
      case Success(value) => Success(value)
      case Failure(e) => Failure(Rethrown(ThrownNetworkError(e)))
  }

  /** `fetch` is `fetchData` followed by decoding: its transport errors are
      exactly `fetchData`'s, and decoding runs only on the bytes `fetchData`
      would return. */
  lemma FetchIsFetchDataThenDecode<Body, T>(endpoint: Endpoint<Body>, platform: Platform<Body>,
                                             decoder: Data -> DecodeOutcome<T>)
    ensures Fetch(endpoint, platform, decoder) ==
              match FetchData(endpoint, platform)
              case Failure(e) => Failure(e)
              case Success(data) =>
                match DecodeData(data, decoder)
                case Success(value) => Success(value)
                case Failure(e) => Failure(ThrownNetworkError(e))
  {
  }

  /** A session that throws "not connected to the internet" makes `fetch`
      fail with the "No internet connection." network error. */
  lemma OfflineFetchFails<Body, T>(endpoint: Endpoint<Body>, platform: Platform<Body>,
                                   decoder: Data -> DecodeOutcome<T>, description: string)
    requires CreateRequest(endpoint, platform).Success?
    requires platform.session(CreateRequest(endpoint, platform).value)
          == SessionThrew(ThrownURLError(URLError(NotConnectedToInternet, description)))
    ensures Fetch(endpoint, platform, decoder)
         == Failure(ThrownNetworkError(NetworkError("No internet connection.")))
  {
  }

  /** A 500 response makes `fetch` fail with `serverError(500)` before any
      decoding is tried. */
  lemma ServerErrorBeforeDecoding<Body, T>(endpoint: Endpoint<Body>, platform: Platform<Body>,
                                           decoder: Data -> DecodeOutcome<T>, body: Data)
    requires CreateRequest(endpoint, platform).Success?
    requires platform.session(CreateRequest(endpoint, platform).value)
          == Delivered(body, HTTPURLResponse(500))
    ensures Fetch(endpoint, platform, decoder) == Failure(ThrownNetworkError(ServerError(500)))
  {
  }
}

=== FILE: recipes.dfy ===
/** The decoded recipe payload (`Recipe`, `RecipesResponse`), as plain records. */
module Recipes {
  import opened Wrappers

  datatype Recipe = Recipe(
    cuisine: string,
    name: string,
    photoLargeUrl: Option<string>,
    photoSmallUrl: Option<string>,
    uuid: string,
    sourceUrl: Option<string>,
    youtubeUrl: Option<string>)

  datatype RecipesResponse = RecipesResponse(recipes: seq<Recipe>)
}

=== FILE: recipes_view.dfy ===
/** The list the recipes screen shows (`RecipesView.filteredAndSortedRecipes`):
    the loaded recipes, narrowed by the search query, then by the selected
    cuisine, then sorted by the selected option. */
module RecipesView {
  import opened Wrappers
  import opened Recipes

  /** `SortOption`, with its `String` raw values. */
  datatype SortOption = Name | Cuisine {

    function RawValue(): string {
      match this
      case Name => "Name"
      case Cuisine => "Cuisine"
    }

    /** The synthesised `SortOption(rawValue:)`. */
    static function FromRawValue(raw: string): Option<SortOption> {
      if raw == "Name" then Some(Name)
      else if raw == "Cuisine" then Some(Cuisine)
      else None
    }
  }

  /** `SortOption.allCases`, in declaration order. */
  const AllSortOptions: seq<SortOption> := [Name, Cuisine]

  /** Every option is listed once, and its raw value reads back to it. */
  lemma SortOptionCases(option: SortOption, raw: string)
    ensures option in AllSortOptions && |AllSortOptions| == 2 && AllSortOptions[0] != AllSortOptions[1]
    ensures SortOption.FromRawValue(option.RawValue()) == Some(option)
    ensures SortOption.FromRawValue(raw).Some? ==> SortOption.FromRawValue(raw).value.RawValue() == raw
  {
  }

  /** The standard-library string operations the list relies on:
      `lowercased()`, `contains(_:)`, `==` and `<`. Swift compares `String`s
      by canonical equivalence of their characters, so `==` is not equality of
      scalar sequences ("Café" precomposed equals "Cafe" plus a combining
      accent). Their Unicode behaviour is not modelled; only `<`'s ordering
      laws are assumed where sorting needs them. */
  datatype StringOps = StringOps(
    lowercased: string -> string,
    contains: (string, string) -> bool,
    equal: (string, string) -> bool,
    less: (string, string) -> bool)

  /** What `sort(by:)` demands of its comparator: a strict weak ordering. */
  ghost predicate StrictWeakOrder(less: (string, string) -> bool) {
    && (forall a, b :: less(a, b) ==> !less(b, a))
    && (forall a, b, c :: !less(a, b) && !less(b, c) ==> !less(a, c))
  }

  /** The view's state that shapes the list. */
  datatype ListControls = ListControls(
    searchQuery: string,
    selectedSortOption: SortOption,
    selectedCuisineFilter: Option<string>)

  /** A recipe passes the search when the query is empty, or when its
      lowercased name or cuisine contains the lowercased query. */
  predicate PassesSearch(r: Recipe, query: string, ops: StringOps) {
    || |query| == 0
    || ops.contains(ops.lowercased(r.name), ops.lowercased(query))
    || ops.contains(ops.lowercased(r.cuisine), ops.lowercased(query))
  }

  /** A recipe passes the cuisine filter when none is selected, when the
      selection is "", or when its cuisine is `==` to the selection. */
  predicate PassesCuisine(r: Recipe, filter: Option<string>, ops: StringOps) {
    match filter
    case None => true
    case Some(cuisine) => |cuisine| == 0 || ops.equal(r.cuisine, cuisine)
  }

  /** `filter`: the elements that satisfy `keep`, each as often as in `xs`. */
  function Filter(xs: seq<Recipe>, keep: Recipe -> bool): (kept: seq<Recipe>)
    ensures forall x :: multiset(kept)[x] == if keep(x) then multiset(xs)[x] else 0
  {
    if |xs| == 0 then []
    else
      assert xs == [xs[0]] + xs[1..];
      (if keep(xs[0]) then [xs[0]] else []) + Filter(xs[1..], keep)
  }

  /** The search step: skipped for an empty query. */
  function SearchStep(recipes: seq<Recipe>, query: string, ops: StringOps): (kept: seq<Recipe>)
    ensures forall x :: multiset(kept)[x] ==
              if PassesSearch(x, query, ops) then multiset(recipes)[x] else 0
  {
    if |query| == 0 then recipes
    else
      Filter(recipes, (r: Recipe) =>
        ops.contains(ops.lowercased(r.name), ops.lowercased(query)) ||
        ops.contains(ops.lowercased(r.cuisine), ops.lowercased(query)))
  }

  /** The cuisine step: skipped when no cuisine, or "", is selected. */
  function CuisineStep(recipes: seq<Recipe>, filter: Option<string>, ops: StringOps)
    : (kept: seq<Recipe>)
    ensures forall x :: multiset(kept)[x] ==
              if PassesCuisine(x, filter, ops) then multiset(recipes)[x] else 0
  {
    match filter
    case None => recipes
    case Some(cuisine) =>
      if |cuisine| == 0 then recipes else Filter(recipes, (r: Recipe) => ops.equal(r.cuisine, cuisine))
  }

  function SortKey(r: Recipe, option: SortOption): string {
    match option
    case Name => r.name
    case Cuisine => r.cuisine
  }

  /** No recipe comes after one whose key is greater (the order `sort(by:)`
      produces: a later element is never `<` an earlier one). */
  ghost predicate SortedBy(xs: seq<Recipe>, option: SortOption, less: (string, string) -> bool) {
    forall i, j :: 0 <= i < j < |xs| ==> !less(SortKey(xs[j], option), SortKey(xs[i], option))
  }

  /** Inserts `x` before the first element that is not `<` it. */
  function Insert(x: Recipe, xs: seq<Recipe>, option: SortOption, less: (string, string) -> bool)
    : (ys: seq<Recipe>)
    ensures multiset(ys) == multiset(xs) + multiset{x}
  {
    if |xs| == 0 then [x]
    else if !less(SortKey(xs[0], option), SortKey(x, option)) then
      assert xs == [xs[0]] + xs[1..];
      [x] + xs
    else
      assert xs == [xs[0]] + xs[1..];
      [xs[0]] + Insert(x, xs[1..], option, less)
  }

  /** A sort by the chosen key. Swift does not promise a stable sort; this one
      fixes one order among equal keys, and nothing below depends on which. */
  function Sort(xs: seq<Recipe>, option: SortOption, less: (string, string) -> bool)
    : (ys: seq<Recipe>)
    ensures multiset(ys) == multiset(xs)
  {
    if |xs| == 0 then []
    else
      assert xs == [xs[0]] + xs[1..];
      Insert(xs[0], Sort(xs[1..], option, less), option, less)
  }

  /** Putting `h` in front of a sorted list keeps it sorted when no element
      of the list is `<` `h`. */
  lemma PrependKeepsOrder(h: Recipe, xs: seq<Recipe>, option: SortOption,
                          less: (string, string) -> bool)
    requires SortedBy(xs, option, less)
    requires forall y :: y in xs ==> !less(SortKey(y, option), SortKey(h, option))
    ensures SortedBy([h] + xs, option, less)
  {
    var ys := [h] + xs;
    forall i, j | 0 <= i < j < |ys|
      ensures !less(SortKey(ys[j], option), SortKey(ys[i], option))
    {
      assert ys[j] == xs[j - 1];
      if i > 0 {
        assert ys[i] == xs[i - 1];
      } else {
        assert ys[j] in xs;
      }
    }
  }

  lemma {:induction false} InsertKeepsOrder(x: Recipe, xs: seq<Recipe>, option: SortOption,
                                            less: (string, string) -> bool)
    requires StrictWeakOrder(less)
    requires SortedBy(xs, option, less)
    ensures SortedBy(Insert(x, xs, option, less), option, less)
    decreases |xs|
  {
    if |xs| == 0 {
    } else if !less(SortKey(xs[0], option), SortKey(x, option)) {
      forall y | y in xs
        ensures !less(SortKey(y, option), SortKey(x, option))
      {
        var k :| 0 <= k < |xs| && xs[k] == y;
        if k > 0 {
          assert !less(SortKey(xs[k], option), SortKey(xs[0], option));
        }
      }
      PrependKeepsOrder(x, xs, option, less);
    } else {
      var rest := Insert(x, xs[1..], option, less);
      InsertKeepsOrder(x, xs[1..], option, less);
      forall y | y in rest
        ensures !less(SortKey(y, option), SortKey(xs[0], option))
      {
        assert y in multiset(rest);
        if y != x {
          assert y in multiset(xs[1..]);
          var k :| 0 <= k < |xs[1..]| && xs[1..][k] == y;
          assert xs[k + 1] == y;
        }
      }
      PrependKeepsOrder(xs[0], rest, option, less);
    }
  }

  lemma {:induction false} SortSorts(xs: seq<Recipe>, option: SortOption,
                                     less: (string, string) -> bool)
    requires StrictWeakOrder(less)
    ensures SortedBy(Sort(xs, option, less), option, less)
    decreases |xs|
  {
    if |xs| > 0 {
      SortSorts(xs[1..], option, less);
      InsertKeepsOrder(xs[0], Sort(xs[1..], option, less), option, less);
    }
  }

  lemma SortSortsWhenOrdered(xs: seq<Recipe>, option: SortOption, less: (string, string) -> bool)
    ensures StrictWeakOrder(less) ==> SortedBy(Sort(xs, option, less), option, less)
  {
    if StrictWeakOrder(less) {
      SortSorts(xs, option, less);
    }
  }

  /** `filteredAndSortedRecipes`: each recipe appears exactly as often as in
      the loaded list if it passes both the search and the cuisine filter, and
      not at all otherwise; the list is sorted by the selected key whenever
      `<` is a strict weak ordering, as Swift's `String` comparison is. */
  function FilteredAndSortedRecipes(recipes: seq<Recipe>, controls: ListControls, ops: StringOps)
    : (shown: seq<Recipe>)
    ensures forall x :: multiset(shown)[x] ==
              if PassesSearch(x, controls.searchQuery, ops) &&
                 PassesCuisine(x, controls.selectedCuisineFilter, ops)
              then multiset(recipes)[x] else 0
    ensures StrictWeakOrder(ops.less) ==>
              SortedBy(shown, controls.selectedSortOption, ops.less)
  {
    var searched := SearchStep(recipes, controls.searchQuery, ops);
    var narrowed := CuisineStep(searched, controls.selectedCuisineFilter, ops);
    SortSortsWhenOrdered(narrowed, controls.selectedSortOption, ops.less);
    Sort(narrowed, controls.selectedSortOption, ops.less)
  }

  /** A recipe is shown exactly when it was loaded and passes both filters,
      and nothing is shown more often than it was loaded. */
  lemma ShownRecipes(recipes: seq<Recipe>, controls: ListControls, ops: StringOps)
    ensures var shown := FilteredAndSortedRecipes(recipes, controls, ops);
            && multiset(shown) <= multiset(recipes)
            && forall x :: x in shown <==>
                 x in recipes && PassesSearch(x, controls.searchQuery, ops) &&
                 PassesCuisine(x, controls.selectedCuisineFilter, ops)
  {
    var shown := FilteredAndSortedRecipes(recipes, controls, ops);
    forall x
      ensures x in shown <==>
                x in recipes && PassesSearch(x, controls.searchQuery, ops) &&
                PassesCuisine(x, controls.selectedCuisineFilter, ops)
    {
      assert x in shown <==> multiset(shown)[x] > 0;
      assert x in recipes <==> multiset(recipes)[x] > 0;
    }
  }

  /** With an empty query and no cuisine selected (nil or ""), the list is the
      loaded recipes, only reordered. */
  lemma NoFilterOnlyReorders(recipes: seq<Recipe>, option: SortOption, filter: Option<string>,
                             ops: StringOps)
    requires filter.None? || filter == Some("")
    ensures multiset(FilteredAndSortedRecipes(recipes, ListControls("", option, filter), ops))
         == multiset(recipes)
  {
    var shown := FilteredAndSortedRecipes(recipes, ListControls("", option, filter), ops);
    assert forall x :: multiset(shown)[x] == multiset(recipes)[x];
  }
}

=== FILE: wrappers.dfy ===
/** Optional values and success/failure results: the model's stand-ins for Swift
    optionals and for functions that `throw`. */
module Wrappers {

  /** Swift's `T?`. */
  datatype Option<+T> = None | Some(value: T) {

    /** `self ?? default` */
    function GetOr(default: T): T {
      match this
      case Some(v) => v
      case None => default
    }
  }

  /** The outcome of a throwing call: the returned value or the thrown error. */
  datatype Result<+T, +E> = Success(value: T) | Failure(error: E)
}
